=== FILE: README.md ===
# waw workflow engine: a Dafny model of the argument narrowing, component cache and step loop

waw runs a *workflow*, a list of steps, against WebAssembly components.
- Each step names a component file (`wasm`), an exported function (`function`) and a list of input arguments.
- The engine first fills a cache that maps component paths to compiled components (`load_components`).
- It then runs the steps in order (`execute_workflow`). For each step it instantiates the cached component, looks up the export, converts the inputs to call values, calls, and keeps the call's first result slot.
- The run reports the last step's result.

This project models three pieces of that code:

- **Argument narrowing** (`src/value.rs`, module `Value`). A JSON manifest argument becomes a component call value, as follows:
  - booleans and strings map across unchanged, and `null` becomes the empty string;
  - arrays and objects are refused;
  - an integer takes the narrowest *signed* width that holds it;
  - only integers above `i64::MAX` reach the unsigned ladder.

  serde_json's number representation is modelled in module `Json`. Component call values, integer widths and Rust's `as` casts are modelled in module `Wasm`.
- **The component cache** (`load_components`, module `ComponentCache`). A fold over the steps' paths into a map:
  - paths already cached are skipped;
  - the first read or compile failure stops the fill;
  - entries inserted before the failure stay.

  Both revisions share this fold; they differ only in how they wrap the failure.
- **The step loop** (`execute_workflow`). The loop itself is the generic module `StepLoop`:
  - the store is threaded from step to step;
  - the last result is overwritten by each step;
  - the loop stops at the first failing `?`.

  Each revision supplies its own step function. The repository holds two revisions of the engine, and each is its own module:
  - `Engine` (`src/engine.rs`): a fresh store per run. Inputs are converted by the infallible `val()`. The result is the first slot as a JSON number when it is an `s32`, and JSON `null` otherwise. Errors are untyped messages.
  - `WorkflowEngine` (`src/workflow_engine.rs`): one long-lived store of the engine's context. Inputs are converted by a fallible conversion. The result is `Option` of the last first-slot value rendered as value text. Failures are the closed set of `WorkflowEngineError` kinds.

**The sandbox is a set of oracles.** wasmtime (compile, instantiate, export lookup, call) and value-text rendering are parameters of the model; the three store operations are held in function-typed fields (`Wasm.Runtime`).
- Instantiation and the call take the store and return the store they leave, with their result or failure.
- Export lookup takes the store and the instance and answers with the export or nothing; it returns no store.
- Compiling, reading a file and rendering a value as text do not involve the store.

Any answer the sandbox may give is allowed, within the call values the model has (see "## Left out").

**The trace.** The loop records every instantiation and every call it makes as an `Event` (`Instantiated` or `Invoked`, tagged with the step index); a call is recorded whether or not it fails. Export lookups are not recorded. The order of calls and their arguments can therefore be stated and proved.

`src/workflow_engine.rs` calls `val()` as if it could fail (its result is collected into a `Result` and propagated with `?`). The `val()` in `src/value.rs` cannot fail. So `WorkflowEngine` takes the conversion as a parameter `convert: V -> Result<Val, ParseError>`. Its error is taken to be wasm_wave's parser error, which is the `WasmWave` kind.

## Model

| member | source | states |
|---|---|---|
| Json.FromInt | src/engine.rs:89 | the JSON number built from an integer denotes exactly that integer, and is a valid serde_json number whenever the integer lies in the i64/u64 range |
| Json.AsI64 | src/value.rs:23 | `as_i64` yields a value exactly for integers up to `i64::MAX`, and that value is the number's integer |
| Json.AsU64 | src/value.rs:33 | `as_u64` yields a value exactly for non-negative integers, and that value lies in the u64 range |
| Json.AsF64 | src/value.rs:43 | `as_f64` always yields a value, and a float yields itself |
| Wasm.CastSigned | src/value.rs:24-31 | Rust's `as iN` cast: the result fits the width, is congruent to the input modulo 2^N, and is the input itself when the input already fits |
| Wasm.CastUnsigned | src/value.rs:34-41 | Rust's `as uN` cast: the result fits the width, is congruent to the input modulo 2^N, and is the input itself when the input already fits |
| Wasm.WriteBack | src/engine.rs:82-85 | a call that writes its results into the result buffer never changes the buffer's length |
| Wasm.WriteBackContents | src/engine.rs:82-85 | after the call, the first slots hold what the call wrote and every other slot keeps the buffer's initial value |
| Workflow.Paths | src/engine.rs:28 | the paths to load are the steps' `wasm` fields, one per step and in step order |
| Value.NarrowSigned | src/value.rs:23-32 | an i64 becomes a signed value that carries exactly that integer, at a width holding it, and no narrower width holds it |
| Value.NarrowUnsigned | src/value.rs:33-42 | a u64 becomes an unsigned value that carries exactly that integer, at the narrowest unsigned width that holds it |
| Value.Deserialize | src/value.rs:20-58 | bool maps to `Bool`, string to the same `String`, and `null` to `String("")`; deserialization fails exactly for arrays and objects, with "unsupported value type" |
| Value.NarrowestSignedWidth | src/value.rs:23-32 | an integer that fits i64 becomes the signed value, of the narrowest signed width that holds it, carrying that integer |
| Value.ByteRangeIsS8 | src/value.rs:23-25 | every integer in [-128, 127], including small non-negative ones, becomes `S8` and never `U8` |
| Value.UnsignedOnlyAboveI64 | src/value.rs:33-42 | an unsigned value comes only from an integer above `i64::MAX`, and is then always `U64`, so the `U8`, `U16` and `U32` arms are unreachable |
| Value.IntegersTakeAnIntegerArm | src/value.rs:22-42 | every JSON integer is accepted and becomes an in-range integer value that carries it exactly: no cast wraps or truncates |
| ComponentCache.Pending | src/engine.rs:28-32 | the reference work list holds only uncached paths, and none of them twice |
| ComponentCache.PendingCoversUncached | src/engine.rs:28-32 | every path not cached beforehand is in the reference work list |
| ComponentCache.Load | src/engine.rs:29-39 | a fill never changes or removes an entry that was already cached |
| ComponentCache.LoadFollowsPending | src/engine.rs:29-35 | a fill reads paths in the order of the reference work list: a prefix of it, and all of it on success; so no cached path is read, and no path is read twice |
| ComponentCache.LoadFetchOutcomes | src/engine.rs:34-39 | every path read, except a failing last one, is cached with the component its read and compile produced; the failing one is the cause of the failure and is not cached |
| ComponentCache.LoadAddsOnlyFetched | src/engine.rs:39 | a fill adds entries only for the paths it read |
| ComponentCache.LoadCovers | src/engine.rs:27-41 | after a successful fill, the cache's keys are exactly the old keys plus every step path |
| ComponentCache.AllCachedIsNoOp | src/engine.rs:30-32 | a fill over paths that are all cached reads nothing and changes nothing |
| ComponentCache.LoadIsIdempotent | src/workflow_engine.rs:26-36 | filling again after a successful fill, with any paths already cached, reads and compiles nothing and changes nothing |
| ComponentCache.LoadStopsAtFailure | src/workflow_engine.rs:27-37 | after a failed fill, every path before the failing path's first occurrence is cached: nothing after the failure was attempted |
| ComponentCache.NoRefetchAcrossFills | src/workflow_engine.rs:28-30 | a second fill never reads a path that the first fill left cached, even when it reads and compiles with different functions (files may change between fills) |
| Engine.LoadComponents | src/engine.rs:27-42 | cached entries are kept; on success every step's path is cached; a failure is the last path read, which is not cached, and the failure is either a read error naming that path or a compile error of its bytes |
| Engine.Args | src/engine.rs:79 | the call's arguments are the inputs' wrapped values, one per input and in order |
| Engine.RunStep | src/engine.rs:49-91 | one step: an uncached path fails with `ComponentNotFound` of that path and touches nothing; instantiation runs in the incoming store and its failure is `InstantiateFailed`; `FunctionNotFound` arises exactly when the export is missing from the new instance, before any call; the call runs in the store instantiation left, with the inputs in order, and is recorded whether or not it fails; the step leaves the store the call left; a failed call is `CallFailed`, and a successful one leaves one slot holding the call's first written value (`S32(0)` if none); every interaction is tagged with the step |
| Engine.ResultSlot | src/engine.rs:82-85 | after the call, the one-slot result buffer holds the call's first written value, or its initial `S32(0)` when nothing was written |
| Engine.Render | src/engine.rs:88-91 | the result is a JSON number exactly when the first slot is an `s32`, and then it carries that integer; in every other case it is `null` |
| Engine.Execute | src/engine.rs:44-95 | an empty workflow returns `null` and touches nothing |
| Engine.ExecuteStep | src/engine.rs:49-91 | the imperative step, with an early return at each failing `?`, computes exactly `RunStep` |
| Engine.ExecuteWorkflow | src/engine.rs:44-95 | the imperative run over a fresh store computes exactly `Execute` |
| Engine.StepsRunInOrder | src/engine.rs:48-85 | while no step has failed, the interactions are exactly, for each step in workflow order, its instantiation and then its call with its inputs |
| Engine.TraceStaysBelow | src/engine.rs:48 | after n iterations, only steps 0..n-1 have touched the sandbox |
| Engine.FirstFailureEndsRun | src/engine.rs:48-85 | the first failing step's error is the run's error, and the run's interactions are the earlier steps' plus the failing step's own |
| Engine.MissingComponentEndsRun | src/engine.rs:49-52 | an uncached step fails the run with `ComponentNotFound` of its path, and makes no interaction of its own |
| Engine.MissingExportEndsRun | src/engine.rs:75-77 | when the reached step's export is missing from its new instance, the run fails with `FunctionNotFound` after instantiation, before any call |
| Engine.SuccessEndsRun | src/engine.rs:48-92 | a successful run made exactly the calls of every step in workflow order: each component instantiated, then its export called with its inputs' values |
| Engine.LastStepDecides | src/engine.rs:88-94 | a successful non-empty run reports the rendering of the last step's result buffer, a number exactly when its first slot is an `s32` |
| Engine.LoadedComponentsAreFound | src/engine.rs:49-52 | when every step's path is cached, no run fails with `ComponentNotFound` |
| WorkflowEngine.LoadComponents | src/workflow_engine.rs:22-39 | cached entries are kept; on success every step's path is cached; a failure is the last path read, which is not cached; an `Io` failure is that path's read error, and a `Wasmtime` failure is the compile error of its bytes |
| WorkflowEngine.CollectArgs | src/workflow_engine.rs:66-70 | when collecting succeeds, there is one value per input |
| WorkflowEngine.CollectArgsFirstError | src/workflow_engine.rs:66-70 | collecting succeeds exactly when every input converts, and then holds each input's value in order; otherwise its error is that of the first input that does not convert |
| WorkflowEngine.ConvertInputs | src/workflow_engine.rs:66-70 | the imperative pass over the inputs, leaving at the first failure, computes exactly `CollectArgs` |
| WorkflowEngine.RunStep | src/workflow_engine.rs:48-80 | the error precedence of one step: component lookup (`ComponentNotFound` of the path, touching nothing), then instantiation in the incoming store (`Wasmtime`), then export lookup in the new instance (`FunctionNotFound` of the function name), then input conversion (`WasmWave` of the first bad input), then the call in the store instantiation left (`Wasmtime`), recorded whether or not it fails; the step leaves the store the call left, and a success yields `Some` of the call's first written value (`S32(0)` if none) |
| WorkflowEngine.ResultSlot | src/workflow_engine.rs:73-80 | after the call, the first result slot is always present and holds the call's first written value, or `S32(0)` when nothing was written |
| WorkflowEngine.Execute | src/workflow_engine.rs:41-84 | an empty workflow returns `Ok(None)`, keeps the store and touches nothing |
| WorkflowEngine.ExecuteStep | src/workflow_engine.rs:48-80 | the imperative step, with an early return at each failing `?`, computes exactly `RunStep` |
| WorkflowEngine.ExecuteWorkflow | src/workflow_engine.rs:41-84 | the imperative run through the context's store computes exactly `Execute`, including the store it leaves behind |
| WorkflowEngine.StepsRunInOrder | src/workflow_engine.rs:47-77 | while no step has failed, the interactions are exactly, for each step in workflow order, its instantiation and then its call with all its inputs converted |
| WorkflowEngine.TraceStaysBelow | src/workflow_engine.rs:47 | after n iterations, only steps 0..n-1 have touched the sandbox |
| WorkflowEngine.FirstFailureEndsRun | src/workflow_engine.rs:47-77 | the first failing step's error is the run's error; the context keeps the store as that step left it; the interactions are the earlier steps' plus the failing step's own |
| WorkflowEngine.MissingComponentEndsRun | src/workflow_engine.rs:48-51 | an uncached step fails the run with `ComponentNotFound(step.wasm)`, with the store and interactions as the earlier steps left them |
| WorkflowEngine.MissingExportEndsRun | src/workflow_engine.rs:61-63 | a missing export fails the run with `FunctionNotFound(step.function)` after instantiation, before any conversion or call |
| WorkflowEngine.BadInputEndsRun | src/workflow_engine.rs:66-70 | an input that does not convert, once the export is found, fails the run with the first bad input's error, before any call |
| WorkflowEngine.SuccessEndsRun | src/workflow_engine.rs:47-81 | when no step failed, the context keeps the store the last step's call left (the store is updated in place at each step), and the run made exactly the calls of every step in workflow order, each with its converted inputs |
| WorkflowEngine.LastSlotIsReported | src/workflow_engine.rs:80-83 | a successful non-empty run returns `Some` of the rendering of the last step's first slot, never `None`; an unrenderable value panics |
| WorkflowEngine.LoadedComponentsAreFound | src/workflow_engine.rs:48-51 | when every step's path is cached, no run fails with `ComponentNotFound` |
| StepLoop.RunLoop | src/engine.rs:48-92 | the in-place loop with an early return at the first failure computes exactly the fold over the steps |
| StepLoop.StoreCarriesOver | src/workflow_engine.rs:54-76 | every step after the first runs in the store the step before it left: one store is threaded through the whole run |
| StepLoop.HaltsOnFirstError | src/engine.rs:52 | once a step has failed, no later step runs and the state stays as it was |
| StepLoop.LoopEndsAtFailure | src/workflow_engine.rs:47-81 | a failing step fixes the final state: the store as it left it (nothing is rolled back), the earlier last result, its failure, and the interactions up to and including it |
| StepLoop.FailureComesFromAStep | src/workflow_engine.rs:47-81 | every failure of the loop is the failure of a step that the loop reached |
| StepLoop.SuccessKeepsLastResult | src/workflow_engine.rs:80 | when all steps succeed, every one of them ran, and the last result is the last step's, whatever the earlier steps returned |
| StepLoop.TraceStaysBelow | src/engine.rs:48 | when steps tag their interactions, the first n iterations interact only on behalf of steps 0..n-1 |
| StepLoop.StepsRunInOrder | src/workflow_engine.rs:47 | while no step has failed, the loop's interactions are the reference trace, each step's own interactions in workflow order |

## Left out

- `src/context.rs` (wasmtime `Config`, `Engine`, `Linker` and WASI setup), `src/main.rs` (command-line handling and printing) and `src/lib.rs` (re-exports) are not part of this model.
- `src/workflow.rs` is not part of this model beyond the shape of a workflow and its steps: reading the manifest file and choosing between the JSON and YAML parsers is I/O over library parsers.
- wasmtime's compile, instantiate, export lookup and call, and wasm_wave's `to_wave`, are oracles. The model proves what the engine does with whatever they return, not what they compute. The same goes for reading a file.
- `async`/`await`: each suspension point is modelled as an ordinary sequential call.
- The float arm of argument narrowing: the range check against `f32::MIN`/`f32::MAX` is done on reals. The rounding that `as f32` and `as f64` perform is not modelled. serde_json is modelled without its `arbitrary_precision` feature; there `as_f64` always succeeds, so "invalid number format" can never be produced.
- Export lookup (`get_func`) is modelled as leaving the store unchanged: wasmtime takes the store mutably there, but the engine uses only the export it returns.
- The commented-out template substitution in `execute_workflow` of `src/engine.rs` is not modelled: it is dead code.
- The text of `WorkflowEngineError`'s messages is not modelled. `Engine.Message` gives the texts of `src/engine.rs`, but has no contract.
- Call values are restricted to the primitive cases (booleans, the integer widths, the two float widths, characters and strings). wasmtime's component values also include lists, records, tuples, variants, enums, options, results, flags and resources, which a call may write into the result slot and a value-text conversion may produce. None of the proved properties depends on which case a value is.
- Value.FromNumber has no contract of its own; the number arm it models is stated by `Value.NarrowestSignedWidth`, `Value.ByteRangeIsS8`, `Value.UnsignedOnlyAboveI64` and `Value.IntegersTakeAnIntegerArm`, and by the contracts of `Value.NarrowSigned` and `Value.NarrowUnsigned`.
- StepLoop.Fold has no contract of its own; the `for` loop it models is stated by `StepLoop.HaltsOnFirstError`, `StepLoop.LoopEndsAtFailure`, `StepLoop.FailureComesFromAStep`, `StepLoop.SuccessKeepsLastResult`, `StepLoop.StoreCarriesOver`, `StepLoop.StepsRunInOrder` and `StepLoop.RunLoop`.
- ComponentCache.Fetch (reading a path, then compiling its bytes) has no contract of its own; `ComponentCache.LoadFetchOutcomes` states what the fill does with its answer.
- Engine.ReadNamingPath, Engine.CompileReporting, WorkflowEngine.ReadAsIo and WorkflowEngine.CompileAsWasmtime (how each revision wraps a read or compile failure) have no contract of their own; the failure cases of `Engine.LoadComponents` and `WorkflowEngine.LoadComponents` state the resulting error kinds.
- `Value.Val` (`val()`) returns the wrapped call value; it appears in the contracts of `Engine.Args` and the `Value` lemmas, and has no contract of its own.
- WorkflowEngine.CollectArgs: its own contract states only the length on success; what it computes is stated by `WorkflowEngine.CollectArgsFirstError`.
- Engine.Execute: its own contract states only the empty workflow; the rest is stated by the lemmas about it (`FirstFailureEndsRun` for a failed run, `LastStepDecides` and `SuccessEndsRun` for a successful one).
- WorkflowEngine.Execute: its own contract states only the empty workflow; the rest is stated by the lemmas about it (`FirstFailureEndsRun` for a failed run, `LastSlotIsReported` and `SuccessEndsRun` for one where no step failed).

=== FILE: cache.dfy ===
/** The component cache both engine revisions fill before running: a map from
    component path to compiled component, filled in step order. A path already
    present is skipped (no read, no compile); the first read or compile failure
    stops the fill, and what was inserted before it stays. The two revisions
    differ only in how they wrap the failure, so the fold is generic in the error. */
module ComponentCache {
  import opened Wrappers
  import opened Wasm

  /** The cache after a fill, the paths whose file was read (in order), and the
      failure that stopped the fill, if any. */
  datatype Fill<C, E> = Fill(cache: map<string, C>, fetched: seq<string>, failure: Option<E>)

  /** Reading and compiling one path. */
  function Fetch<C, E>(p: string, read: string -> Result<seq<byte>, E>,
                       compile: seq<byte> -> Result<C, E>): Result<C, E>
  {
    match read(p)
    case Failure(e) => Failure(e)
    case Success(bytes) => compile(bytes)
  }

  /** Reference definition of the work a fill has to do: the paths not in `known`,
      without repetitions, in order of first occurrence. */
  function Pending(known: set<string>, paths: seq<string>): (r: seq<string>)
    ensures forall i :: 0 <= i < |r| ==> r[i] !in known && r[i] in paths
    ensures forall i, j :: 0 <= i < j < |r| ==> r[i] != r[j]
    decreases |paths|
  {
    if |paths| == 0 then []
    else if paths[0] in known then Pending(known, paths[1..])
    else [paths[0]] + Pending(known + {paths[0]}, paths[1..])
  }

  /** Every uncached path is pending. */
  lemma {:induction false} PendingCoversUncached(known: set<string>, paths: seq<string>)
    ensures forall i :: 0 <= i < |paths| && paths[i] !in known ==> paths[i] in Pending(known, paths)
    decreases |paths|
  {
    if |paths| > 0 {
      if paths[0] in known {
        PendingCoversUncached(known, paths[1..]);
        assert forall i :: 0 < i < |paths| ==> paths[i] == paths[1..][i - 1];
      } else {
        PendingCoversUncached(known + {paths[0]}, paths[1..]);
        assert forall i :: 0 < i < |paths| ==> paths[i] == paths[1..][i - 1];
      }
    }
  }

  /** `load_components`: walk `paths` in order, skipping cached paths, inserting
      each fetched component, and stopping at the first failure. Entries already
      present are left exactly as they were. */
  function Load<C, E>(cache: map<string, C>, paths: seq<string>,
                      read: string -> Result<seq<byte>, E>,
                      compile: seq<byte> -> Result<C, E>): (r: Fill<C, E>)
    ensures forall p :: p in cache ==> p in r.cache && r.cache[p] == cache[p]
    decreases |paths|
  {
    if |paths| == 0 then Fill(cache, [], None)
    else if paths[0] in cache then Load(cache, paths[1..], read, compile)
    else
      match Fetch(paths[0], read, compile)
      case Failure(e) => Fill(cache, [paths[0]], Some(e))
      case Success(c) =>
        var rest := Load(cache[paths[0] := c], paths[1..], read, compile);
        Fill(rest.cache, [paths[0]] + rest.fetched, rest.failure)
  }

  /** A fill fetches in the reference order: a prefix of the pending paths, all of
      them when it succeeds. So no cached path is read, and no path is read twice. */
  lemma {:induction false} LoadFollowsPending<C, E>(cache: map<string, C>, paths: seq<string>,
                                                   read: string -> Result<seq<byte>, E>,
                                                   compile: seq<byte> -> Result<C, E>)
    ensures var r := Load(cache, paths, read, compile);
      && r.fetched <= Pending(cache.Keys, paths)
      && (r.failure.None? ==> r.fetched == Pending(cache.Keys, paths))
    decreases |paths|
  {
    if |paths| > 0 {
      if paths[0] in cache {
        LoadFollowsPending(cache, paths[1..], read, compile);
      } else if Fetch(paths[0], read, compile).Success? {
        var c := Fetch(paths[0], read, compile).value;
        assert cache[paths[0] := c].Keys == cache.Keys + {paths[0]};
        LoadFollowsPending(cache[paths[0] := c], paths[1..], read, compile);
      }
    }
  }

  /** Every fetched path except a failing last one was inserted with the component
      its fetch produced; a failing last path is the failure's cause and is not
      cached. */
  lemma {:induction false} LoadFetchOutcomes<C, E>(cache: map<string, C>, paths: seq<string>,
                                                  read: string -> Result<seq<byte>, E>,
                                                  compile: seq<byte> -> Result<C, E>)
    ensures var r := Load(cache, paths, read, compile);
      var done := if r.failure.Some? then |r.fetched| - 1 else |r.fetched|;
      && (forall i :: 0 <= i < done ==>
            r.fetched[i] in r.cache && Fetch(r.fetched[i], read, compile) == Success(r.cache[r.fetched[i]]))
      && (r.failure.Some? ==>
            && |r.fetched| > 0
            && Fetch(r.fetched[|r.fetched| - 1], read, compile) == Failure(r.failure.value)
            && r.fetched[|r.fetched| - 1] !in r.cache)
    decreases |paths|
  {
    if |paths| > 0 {
      if paths[0] in cache {
        LoadFetchOutcomes(cache, paths[1..], read, compile);
      } else if Fetch(paths[0], read, compile).Success? {
        var c := Fetch(paths[0], read, compile).value;
        var rest := Load(cache[paths[0] := c], paths[1..], read, compile);
        LoadFetchOutcomes(cache[paths[0] := c], paths[1..], read, compile);
        var r := Load(cache, paths, read, compile);
        assert r.fetched == [paths[0]] + rest.fetched;
        assert forall i :: 0 < i < |r.fetched| ==> r.fetched[i] == rest.fetched[i - 1];
      }
    }
  }

  /** A fill adds entries only for paths it fetched. */
  lemma {:induction false} LoadAddsOnlyFetched<C, E>(cache: map<string, C>, paths: seq<string>,
                                                    read: string -> Result<seq<byte>, E>,
                                                    compile: seq<byte> -> Result<C, E>)
    ensures var r := Load(cache, paths, read, compile);
      forall p :: p in r.cache ==> p in cache || p in r.fetched
    decreases |paths|
  {
    if |paths| > 0 {
      if paths[0] in cache {
        LoadAddsOnlyFetched(cache, paths[1..], read, compile);
      } else if Fetch(paths[0], read, compile).Success? {
        var c := Fetch(paths[0], read, compile).value;
        LoadAddsOnlyFetched(cache[paths[0] := c], paths[1..], read, compile);
      }
    }
  }

  /** A successful fill caches exactly the old entries plus every path it was given. */
  lemma LoadCovers<C, E>(cache: map<string, C>, paths: seq<string>,
                         read: string -> Result<seq<byte>, E>,
                         compile: seq<byte> -> Result<C, E>)
    requires Load(cache, paths, read, compile).failure.None?
    ensures var r := Load(cache, paths, read, compile);
      forall p :: p in r.cache <==> p in cache || p in paths
  {
    var r := Load(cache, paths, read, compile);
    LoadFollowsPending(cache, paths, read, compile);
    LoadFetchOutcomes(cache, paths, read, compile);
    LoadAddsOnlyFetched(cache, paths, read, compile);
    PendingCoversUncached(cache.Keys, paths);
    forall p | p in cache || p in paths
      ensures p in r.cache
    {
      if p !in cache {
        var i :| 0 <= i < |paths| && paths[i] == p;
        var j :| 0 <= j < |r.fetched| && r.fetched[j] == p;
      }
    }
  }

  /** A fill over paths that are all cached does nothing. */
  lemma {:induction false} AllCachedIsNoOp<C, E>(cache: map<string, C>, paths: seq<string>,
                                                read: string -> Result<seq<byte>, E>,
                                                compile: seq<byte> -> Result<C, E>)
    requires forall i :: 0 <= i < |paths| ==> paths[i] in cache
    ensures Load(cache, paths, read, compile) == Fill(cache, [], None)
    decreases |paths|
  {
    if |paths| > 0 {
      AllCachedIsNoOp(cache, paths[1..], read, compile);
    }
  }

  /** Filling again after a successful fill, with the same paths or any others
      already cached, reads and compiles nothing and changes nothing. */
  lemma LoadIsIdempotent<C, E>(cache: map<string, C>, paths: seq<string>, again: seq<string>,
                               read: string -> Result<seq<byte>, E>,
                               compile: seq<byte> -> Result<C, E>)
    requires Load(cache, paths, read, compile).failure.None?
    requires forall i :: 0 <= i < |again| ==> again[i] in paths || again[i] in cache
    ensures var c := Load(cache, paths, read, compile).cache;
      Load(c, again, read, compile) == Fill(c, [], None)
  {
    var c := Load(cache, paths, read, compile).cache;
    LoadCovers(cache, paths, read, compile);
    AllCachedIsNoOp(c, again, read, compile);
  }

  /** If the head of `paths` is cached, "every uncached path is preceded by `last`"
      carries over from the tail to the whole sequence. */
  lemma StoppedBeforeTail<C>(paths: seq<string>, cache: map<string, C>, last: string)
    requires |paths| > 0 && paths[0] in cache
    requires forall i :: 0 <= i < |paths[1..]| && paths[1..][i] !in cache ==> last in paths[1..][..i + 1]
    ensures forall i :: 0 <= i < |paths| && paths[i] !in cache ==> last in paths[..i + 1]
  {
    forall i | 0 <= i < |paths| && paths[i] !in cache
      ensures last in paths[..i + 1]
    {
      var k := i - 1;
      assert paths[1..][k] == paths[i];
      assert last in paths[1..][..k + 1];
      var j :| 0 <= j <= k && paths[1..][..k + 1][j] == last;
      assert paths[..i + 1][j + 1] == last;
    }
  }

  /** After a failed fill, every path before the failing path's first occurrence
      is cached: the fill stopped there and attempted nothing later. */
  lemma {:induction false} LoadStopsAtFailure<C, E>(cache: map<string, C>, paths: seq<string>,
                                                   read: string -> Result<seq<byte>, E>,
                                                   compile: seq<byte> -> Result<C, E>)
    requires Load(cache, paths, read, compile).failure.Some?
    ensures var r := Load(cache, paths, read, compile);
      && |r.fetched| > 0
      && forall i :: 0 <= i < |paths| && paths[i] !in r.cache ==> r.fetched[|r.fetched| - 1] in paths[..i + 1]
    decreases |paths|
  {
    var r := Load(cache, paths, read, compile);
    if paths[0] in cache {
      LoadStopsAtFailure(cache, paths[1..], read, compile);
      StoppedBeforeTail(paths, r.cache, r.fetched[|r.fetched| - 1]);
    } else if Fetch(paths[0], read, compile).Success? {
      var c := Fetch(paths[0], read, compile).value;
      var rest := Load(cache[paths[0] := c], paths[1..], read, compile);
      LoadStopsAtFailure(cache[paths[0] := c], paths[1..], read, compile);
      assert r.fetched[|r.fetched| - 1] == rest.fetched[|rest.fetched| - 1];
      StoppedBeforeTail(paths, r.cache, r.fetched[|r.fetched| - 1]);
    } else {
      assert paths[..1][0] == paths[0];
    }
  }

  /** Across two fills, a path cached by the first is never fetched by the second,
      even if the files (`read2`) or the compiler (`compile2`) changed in between:
      each distinct path is read and compiled at most once while the cache lives. */
  lemma NoRefetchAcrossFills<C, E>(cache: map<string, C>, first: seq<string>, second: seq<string>,
                                   read: string -> Result<seq<byte>, E>,
                                   compile: seq<byte> -> Result<C, E>,
                                   read2: string -> Result<seq<byte>, E>,
                                   compile2: seq<byte> -> Result<C, E>)
    ensures var r1 := Load(cache, first, read, compile);
      var r2 := Load(r1.cache, second, read2, compile2);
      forall i :: 0 <= i < |r2.fetched| ==> r2.fetched[i] !in r1.cache
  {
    var r1 := Load(cache, first, read, compile);
    LoadFollowsPending(r1.cache, second, read2, compile2);
  }
}

=== FILE: engine.dfy ===
/** The first engine revision (src/engine.rs): a component cache filled from the
    workflow's paths, then a synchronous step loop that runs every step against one
    store created for the run and reports the last step's first result as JSON
    when it is an `s32`, and `null` otherwise. Errors are untyped messages. */
module Engine {
  import opened Wrappers
  import Json
  import opened Wasm
  import opened Value
  import opened Workflow
  import ComponentCache
  import StepLoop

  /** The failures of this revision, one per `?` in the source. */
  datatype Error =
    | ReadFailed(path: string, ioError: IoError)
    | CompileFailed(cause: WasmError)
    | ComponentNotFound(path: string)
    | InstantiateFailed(cause: WasmError)
    | FunctionNotFound
    | CallFailed(cause: WasmError)

  /** The text each failure reports. */
  function Message(e: Error): string {
    match e
    case ReadFailed(path, e) => "Failed to read component file '" + path + "': " + e.reason
    case CompileFailed(cause) => cause.reason
    case ComponentNotFound(path) => "Component '" + path + "' not found"
    case InstantiateFailed(cause) => cause.reason
    case FunctionNotFound => "Function not found"
    case CallFailed(cause) => cause.reason
  }

  /** File reading with the failure wrapped so that it names the path. */
  function ReadNamingPath(read: string -> Result<seq<byte>, IoError>): string -> Result<seq<byte>, Error> {
    p => match read(p)
         case Success(bytes) => Success(bytes)
         case Failure(e) => Failure(ReadFailed(p, e))
  }

  /** Compilation with the failure passed on as it is. */
  function CompileReporting<C>(compile: seq<byte> -> Result<C, WasmError>): seq<byte> -> Result<C, Error> {
    bytes => match compile(bytes)
             case Success(c) => Success(c)
             case Failure(e) => Failure(CompileFailed(e))
  }

  /** `WorkflowEngine::load_components`: fill the cache with every step's component,
      skipping paths already cached and stopping at the first failure. */
  function LoadComponents<C>(components: map<string, C>, workflow: Workflow<Value>,
                             read: string -> Result<seq<byte>, IoError>,
                             compile: seq<byte> -> Result<C, WasmError>): (r: ComponentCache.Fill<C, Error>)
    ensures forall p :: p in components ==> p in r.cache && r.cache[p] == components[p]
    ensures r.failure.None? ==> forall i :: 0 <= i < |workflow.steps| ==> workflow.steps[i].wasm in r.cache
    ensures r.failure.Some? ==>
      && |r.fetched| > 0
      && var p := r.fetched[|r.fetched| - 1];
      && p !in r.cache
      && match r.failure.value
         case ReadFailed(path, e) => path == p && read(p) == Failure(e)
         case CompileFailed(e) => read(p).Success? && compile(read(p).value) == Failure(e)
         case _ => false
  {
    var paths := Paths(workflow);
    var r := ComponentCache.Load(components, paths, ReadNamingPath(read), CompileReporting(compile));
    if r.failure.None? then
      ComponentCache.LoadCovers(components, paths, ReadNamingPath(read), CompileReporting(compile));
      assert forall i :: 0 <= i < |workflow.steps| ==> workflow.steps[i].wasm == paths[i];
      r
    else
      ComponentCache.LoadFetchOutcomes(components, paths, ReadNamingPath(read), CompileReporting(compile));
      r
  }

  /** The arguments passed to a step's export: each input's wrapped value, in order. */
  function Args(inputs: seq<Value>): (args: seq<Val>)
    ensures |args| == |inputs|
    ensures forall i :: 0 <= i < |inputs| ==> args[i] == inputs[i].Val()
  {
    seq(|inputs|, i requires 0 <= i < |inputs| => inputs[i].Val())
  }

  /** The buffer the engine hands to a call for its results: one `s32` slot. */
  const RESULT_BUFFER: seq<Val> := [S32(0)]

  /** A call's write-back into the result buffer leaves its one slot holding the
      first value written, or `S32(0)` when nothing was written. */
  lemma ResultSlot(written: seq<Val>)
    ensures WriteBack(RESULT_BUFFER, written) == [if |written| > 0 then written[0] else S32(0)]
  {
  }

  /** One step's effect: the store after it, the result buffer as the call left it
      (or the failure), and the sandbox interactions it made. */
  type StepRun<S> = StepLoop.StepRun<S, seq<Val>, Error>

  /** One iteration of the step loop: look up the cached component, instantiate it,
      find the export, pass the inputs and call. Each failure ends the step. */
  function RunStep<S, C, I, F>(components: map<string, C>, rt: Runtime<S, C, I, F>,
                               k: nat, step: Step<Value>, store: S): (r: StepRun<S>)
    // An uncached component is reported, and nothing touches the sandbox.
    ensures step.wasm !in components <==> r.outcome == Failure(ComponentNotFound(step.wasm))
    ensures r.outcome.Failure? && r.outcome.error.ComponentNotFound? ==> r.outcome.error.path == step.wasm
    ensures step.wasm !in components ==> r.store == store && r.events == []
    // Otherwise the component is instantiated first.
    ensures step.wasm in components ==> 1 <= |r.events| <= 2 && r.events[0] == Instantiated(k, step.wasm)
    // Every interaction is tagged with the step's index.
    ensures Tagged(r.events, k)
    // Instantiation runs in the incoming store; its failure ends the step in the
    // store it left.
    ensures step.wasm in components ==>
      var made := rt.instantiate(store, components[step.wasm]);
      made.1.Failure? ==> r == StepLoop.StepRun(made.0, Failure(InstantiateFailed(made.1.error)), [Instantiated(k, step.wasm)])
    // The export is looked up in the new instance; a missing export is reported,
    // and it is the only cause of `FunctionNotFound`, before any call is made.
    ensures step.wasm in components ==>
      var made := rt.instantiate(store, components[step.wasm]);
      made.1.Success? && rt.getFunc(made.0, made.1.value, step.func).None? ==>
        r == StepLoop.StepRun(made.0, Failure(FunctionNotFound), [Instantiated(k, step.wasm)])
    ensures r.outcome == Failure(FunctionNotFound) ==>
      && step.wasm in components
      && var made := rt.instantiate(store, components[step.wasm]);
      && made.1.Success?
      && rt.getFunc(made.0, made.1.value, step.func).None?
    // The call runs in the store instantiation left and is recorded, whether or not
    // it fails. The step leaves the store the call left; a failed call is `CallFailed`, and a successful one leaves the
    // buffer's one slot holding the call's first written value (its initial
    // `S32(0)` when the call wrote nothing).
    ensures step.wasm in components ==>
      var made := rt.instantiate(store, components[step.wasm]);
      made.1.Success? && rt.getFunc(made.0, made.1.value, step.func).Some? ==>
        var called := rt.call(made.0, rt.getFunc(made.0, made.1.value, step.func).value, Args(step.inputs), RESULT_BUFFER);
        && r.store == called.0
        && r.events == [Instantiated(k, step.wasm), Invoked(k, step.func, Args(step.inputs))]
        && (called.1.Failure? ==> r.outcome == Failure(CallFailed(called.1.error)))
        && (called.1.Success? ==>
              r.outcome == Success([if |called.1.value| > 0 then called.1.value[0] else S32(0)]))
    // A call, when made, receives the step's inputs in order.
    ensures |r.events| == 2 ==> r.events[1] == Invoked(k, step.func, Args(step.inputs))
    // Success means the call was made and left exactly one result slot.
    ensures r.outcome.Success? ==> |r.events| == 2 && |r.outcome.value| == 1
  {
    if step.wasm !in components then
      StepLoop.StepRun(store, Failure(ComponentNotFound(step.wasm)), [])
    else
      var made := rt.instantiate(store, components[step.wasm]);
      var instantiated := [Instantiated(k, step.wasm)];
      match made.1
      case Failure(e) => StepLoop.StepRun(made.0, Failure(InstantiateFailed(e)), instantiated)
      case Success(instance) =>
        match rt.getFunc(made.0, instance, step.func)
        case None => StepLoop.StepRun(made.0, Failure(FunctionNotFound), instantiated)
        case Some(func) =>
          var args := Args(step.inputs);
          var called := rt.call(made.0, func, args, RESULT_BUFFER);
          var events := instantiated + [Invoked(k, step.func, args)];
          match called.1
          case Failure(e) => StepLoop.StepRun(called.0, Failure(CallFailed(e)), events)
          case Success(written) =>
            ResultSlot(written);
            StepLoop.StepRun(called.0, Success(WriteBack(RESULT_BUFFER, written)), events)
  }

  /** Rendering the result buffer: its first slot as a JSON number when that slot
      holds an `s32`, JSON `null` in every other case. */
  function Render(results: seq<Val>): (j: Json.Json)
    ensures j.Num? <==> |results| > 0 && results[0].S32?
    ensures j.Num? ==> Json.IntegerOf(j.n) == Some(results[0].n)
    ensures j.Num? && WellFormed(results[0]) ==> Json.ValidNumber(j.n)
    ensures !j.Num? ==> j == Json.Null
  {
    if |results| > 0 && results[0].S32? then Json.Num(Json.FromInt(results[0].n))
    else Json.Null
  }

  /** The step loop of this revision: `RunStep` on each step, the last result kept
      rendered, and no result before the first step. */
  function Runner<S, C, I, F>(components: map<string, C>, rt: Runtime<S, C, I, F>)
    : StepLoop.Loop<Step<Value>, S, seq<Val>, Option<Json.Json>, Error>
  {
    StepLoop.Loop((k: nat, step: Step<Value>, store: S) => RunStep(components, rt, k, step, store),
                  (results: seq<Val>) => Some(Render(results)), None)
  }

  /** The loop's state after its first `n` iterations, starting from `newStore`. */
  function Steps<S, C, I, F>(components: map<string, C>, rt: Runtime<S, C, I, F>,
                             steps: seq<Step<Value>>, n: nat, newStore: S): StepLoop.State<S, Option<Json.Json>, Error>
    requires n <= |steps|
  {
    StepLoop.Fold(Runner(components, rt), steps, n, newStore)
  }

  /** What `execute_workflow` returns, with the interactions it made. */
  datatype Run = Run(result: Result<Json.Json, Error>, trace: seq<Event>)

  /** `WorkflowEngine::execute_workflow`: run every step against the store `newStore`
      created for this run; report the last result, or `null` if there is none. */
  function Execute<S, C, I, F>(components: map<string, C>, rt: Runtime<S, C, I, F>,
                               newStore: S, workflow: Workflow<Value>): (r: Run)
    ensures |workflow.steps| == 0 ==> r == Run(Success(Json.Null), [])
  {
    var st := Steps(components, rt, workflow.steps, |workflow.steps|, newStore);
    Run(if st.failure.Some? then Failure(st.failure.value)
        else Success(match st.last case Some(j) => j case None => Json.Null),
        st.trace)
  }

  /** One iteration of `execute_workflow` as the source writes it, leaving at the
      first failing `?`. It computes exactly the step function `RunStep`. */
  method ExecuteStep<S, C, I, F>(components: map<string, C>, rt: Runtime<S, C, I, F>,
                                 k: nat, step: Step<Value>, store: S) returns (r: StepRun<S>)
    ensures r == RunStep(components, rt, k, step, store)
  {
    if step.wasm !in components {
      return StepLoop.StepRun(store, Failure(ComponentNotFound(step.wasm)), []);
    }
    var made := rt.instantiate(store, components[step.wasm]);
    var events := [Instantiated(k, step.wasm)];
    if made.1.Failure? {
      return StepLoop.StepRun(made.0, Failure(InstantiateFailed(made.1.error)), events);
    }
    var func := rt.getFunc(made.0, made.1.value, step.func);
    if func.None? {
      return StepLoop.StepRun(made.0, Failure(FunctionNotFound), events);
    }
    var args := Args(step.inputs);
    var called := rt.call(made.0, func.value, args, RESULT_BUFFER);
    events := events + [Invoked(k, step.func, args)];
    if called.1.Failure? {
      return StepLoop.StepRun(called.0, Failure(CallFailed(called.1.error)), events);
    }
    return StepLoop.StepRun(called.0, Success(WriteBack(RESULT_BUFFER, called.1.value)), events);
  }

  /** `execute_workflow` as the source writes it: the step loop run in place with
      an early return at the first failure (`StepLoop.RunLoop`), then the last
      result or `null`. It computes exactly `Execute`. */
  method ExecuteWorkflow<S, C, I, F>(components: map<string, C>, rt: Runtime<S, C, I, F>,
                                     newStore: S, workflow: Workflow<Value>) returns (r: Run)
    ensures r == Execute(components, rt, newStore, workflow)
  {
    var st := StepLoop.RunLoop(Runner(components, rt), workflow.steps, newStore);
    if st.failure.Some? {
      return Run(Failure(st.failure.value), st.trace);
    }
    return Run(Success(if st.last.Some? then st.last.value else Json.Null), st.trace);
  }

  /** The interactions a succeeding step makes: instantiate its component, then
      call its export with its inputs. */
  function Calls(k: nat, step: Step<Value>): seq<Event> {
    [Instantiated(k, step.wasm), Invoked(k, step.func, Args(step.inputs))]
  }

  /** While no step has failed, the interactions so far are exactly `Calls` for
      each step in workflow order. */
  lemma {:induction false} StepsRunInOrder<S(!new), C, I, F>(components: map<string, C>, rt: Runtime<S, C, I, F>,
                                    steps: seq<Step<Value>>, n: nat, newStore: S)
    requires n <= |steps|
    requires Steps(components, rt, steps, n, newStore).failure.None?
    ensures Steps(components, rt, steps, n, newStore).trace == StepLoop.Expected(Calls, steps, n)
  {
    forall k: nat, step: Step<Value>, store: S | Runner(components, rt).run(k, step, store).outcome.Success?
      ensures Runner(components, rt).run(k, step, store).events == Calls(k, step)
    {
      var sr := RunStep(components, rt, k, step, store);
      assert sr.events == [sr.events[0], sr.events[1]];
    }
    StepLoop.StepsRunInOrder(Runner(components, rt), Calls, steps, n, newStore);
  }

  /** The first `n` iterations only ever interact on behalf of steps `0..n-1`. */
  lemma {:induction false} TraceStaysBelow<S(!new), C, I, F>(components: map<string, C>, rt: Runtime<S, C, I, F>,
                                    steps: seq<Step<Value>>, n: nat, newStore: S)
    requires n <= |steps|
    ensures StepsBelow(Steps(components, rt, steps, n, newStore).trace, n)
  {
    forall k: nat, step: Step<Value>, store: S
      ensures Tagged(Runner(components, rt).run(k, step, store).events, k)
    {
      var sr := RunStep(components, rt, k, step, store);
    }
    StepLoop.TraceStaysBelow(Runner(components, rt), steps, n, newStore);
  }

  /** The first failing step's error is the run's error; the run's interactions are
      those of the steps before it plus what the failing step did (and so, by
      `TraceStaysBelow`, none of a later step's). */
  lemma FirstFailureEndsRun<S, C, I, F>(components: map<string, C>, rt: Runtime<S, C, I, F>,
                                        newStore: S, workflow: Workflow<Value>, k: nat)
    requires StepLoop.Reaches(Runner(components, rt), workflow.steps, k, newStore)
    requires StepLoop.StepAt(Runner(components, rt), workflow.steps, k, newStore).outcome.Failure?
    ensures var sr := StepLoop.StepAt(Runner(components, rt), workflow.steps, k, newStore);
      var r := Execute(components, rt, newStore, workflow);
      && r.result == Failure(sr.outcome.error)
      && r.trace == Steps(components, rt, workflow.steps, k, newStore).trace + sr.events
  {
    StepLoop.LoopEndsAtFailure(Runner(components, rt), workflow.steps, k, newStore);
  }

  /** A step whose component is not cached fails the run with `ComponentNotFound`
      naming its path, before touching the sandbox. */
  lemma MissingComponentEndsRun<S, C, I, F>(components: map<string, C>, rt: Runtime<S, C, I, F>,
                                            newStore: S, workflow: Workflow<Value>, k: nat)
    requires StepLoop.Reaches(Runner(components, rt), workflow.steps, k, newStore)
    requires workflow.steps[k].wasm !in components
    ensures var r := Execute(components, rt, newStore, workflow);
      && r.result == Failure(ComponentNotFound(workflow.steps[k].wasm))
      && r.trace == Steps(components, rt, workflow.steps, k, newStore).trace
  {
    FirstFailureEndsRun(components, rt, newStore, workflow, k);
  }

  /** Step `k` is reached, its component is cached and instantiates, and looking up
      its export in that instance succeeds exactly when `found`. */
  predicate ExportLookup<S, C, I, F>(components: map<string, C>, rt: Runtime<S, C, I, F>,
                                     steps: seq<Step<Value>>, k: nat, newStore: S, found: bool)
  {
    && StepLoop.Reaches(Runner(components, rt), steps, k, newStore)
    && steps[k].wasm in components
    && var made := rt.instantiate(Steps(components, rt, steps, k, newStore).store, components[steps[k].wasm]);
    && made.1.Success?
    && rt.getFunc(made.0, made.1.value, steps[k].func).Some? == found
  }

  /** A step whose export is missing fails the run with `FunctionNotFound` after
      instantiating, and no call is made for it or any later step. */
  lemma MissingExportEndsRun<S, C, I, F>(components: map<string, C>, rt: Runtime<S, C, I, F>,
                                         newStore: S, workflow: Workflow<Value>, k: nat)
    requires ExportLookup(components, rt, workflow.steps, k, newStore, false)
    ensures var r := Execute(components, rt, newStore, workflow);
      && r.result == Failure(FunctionNotFound)
      && r.trace == Steps(components, rt, workflow.steps, k, newStore).trace + [Instantiated(k, workflow.steps[k].wasm)]
  {
    FirstFailureEndsRun(components, rt, newStore, workflow, k);
  }

  /** A successful, non-empty run reports what the last step's call left in the
      first result slot (rendered), whatever the earlier steps returned: a number
      exactly when that slot holds an `s32`. */
  lemma LastStepDecides<S, C, I, F>(components: map<string, C>, rt: Runtime<S, C, I, F>,
                                    newStore: S, workflow: Workflow<Value>)
    requires |workflow.steps| > 0
    requires Execute(components, rt, newStore, workflow).result.Success?
    ensures var sr := StepLoop.StepAt(Runner(components, rt), workflow.steps, |workflow.steps| - 1, newStore);
      var j := Execute(components, rt, newStore, workflow).result.value;
      && sr.outcome.Success?
      && j == Render(sr.outcome.value)
      && (j.Num? <==> sr.outcome.value[0].S32?)
  {
  }

  /** A successful run reports exactly the interactions `Calls` names for each step,
      in workflow order: every component instantiated and every export called with
      its inputs. */
  lemma SuccessEndsRun<S(!new), C, I, F>(components: map<string, C>, rt: Runtime<S, C, I, F>,
                                         newStore: S, workflow: Workflow<Value>)
    requires Execute(components, rt, newStore, workflow).result.Success?
    ensures Execute(components, rt, newStore, workflow).trace
            == StepLoop.Expected(Calls, workflow.steps, |workflow.steps|)
  {
    StepsRunInOrder(components, rt, workflow.steps, |workflow.steps|, newStore);
  }

  /** After a successful cache fill for a workflow, running it never reports a
      missing component. */
  lemma {:induction false} LoadedComponentsAreFound<S, C, I, F>(components: map<string, C>, rt: Runtime<S, C, I, F>,
                                             steps: seq<Step<Value>>, n: nat, newStore: S)
    requires n <= |steps|
    requires forall i :: 0 <= i < |steps| ==> steps[i].wasm in components
    ensures var st := Steps(components, rt, steps, n, newStore);
      st.failure.Some? ==> !st.failure.value.ComponentNotFound?
  {
    var st := Steps(components, rt, steps, n, newStore);
    if st.failure.Some? {
      StepLoop.FailureComesFromAStep(Runner(components, rt), steps, n, newStore);
      var k :| 0 <= k < n && StepLoop.Reaches(Runner(components, rt), steps, k, newStore)
               && StepLoop.StepAt(Runner(components, rt), steps, k, newStore).outcome == Failure(st.failure.value);
      var sr := RunStep(components, rt, k, steps[k], StepLoop.Fold(Runner(components, rt), steps, k, newStore).store);
    }
  }
}

=== FILE: json.dfy ===
/** The JSON document model the engine reads arguments from and reports results in
    (serde_json's `Value`), with serde_json's three-way number representation. */
module Json {
  import opened Wrappers

  const I64_MIN: int := -0x8000_0000_0000_0000
  const I64_MAX: int := 0x7FFF_FFFF_FFFF_FFFF
  const U64_MAX: int := 0xFFFF_FFFF_FFFF_FFFF

  /** A JSON number as serde_json stores it: a non-negative integer that fits u64,
      a negative integer that fits i64, or a (finite) float. Integer literals outside
      both ranges are parsed as floats, so they never reach the integer cases. */
  datatype Number = PosInt(u: int) | NegInt(i: int) | Float(f: real)

  predicate ValidNumber(n: Number) {
    match n
    case PosInt(u) => 0 <= u <= U64_MAX
    case NegInt(i) => I64_MIN <= i < 0
    case Float(_) => true
  }

  datatype Json =
    | Null
    | Bool(b: bool)
    | Num(n: Number)
    | String(s: string)
    | Array(elems: seq<Json>)
    | Object(fields: seq<(string, Json)>)

  /** The number serde_json builds for an integer literal (or for `i64`/`u64`/`i32` `into()`). */
  function FromInt(x: int): (n: Number)
    ensures I64_MIN <= x <= U64_MAX ==> ValidNumber(n)
    ensures IntegerOf(n) == Some(x)
  {
    if x < 0 then NegInt(x) else PosInt(x)
  }

  /** The integer a number denotes, if it is an integer. */
  function IntegerOf(n: Number): Option<int> {
    match n
    case PosInt(u) => Some(u)
    case NegInt(i) => Some(i)
    case Float(_) => None
  }

  /** `Number::as_i64`: Some exactly for the integers that fit i64. */
  function AsI64(n: Number): (r: Option<int>)
    requires ValidNumber(n)
    ensures r.Some? <==> IntegerOf(n).Some? && IntegerOf(n).value <= I64_MAX
    ensures r.Some? ==> Some(r.value) == IntegerOf(n) && I64_MIN <= r.value <= I64_MAX
  {
    match n
    case PosInt(u) => if u <= I64_MAX then Some(u) else None
    case NegInt(i) => Some(i)
    case Float(_) => None
  }

  /** `Number::as_u64`: Some exactly for the non-negative integers. */
  function AsU64(n: Number): (r: Option<int>)
    requires ValidNumber(n)
    ensures r.Some? <==> IntegerOf(n).Some? && IntegerOf(n).value >= 0
    ensures r.Some? ==> Some(r.value) == IntegerOf(n) && 0 <= r.value <= U64_MAX
  {
    match n
    case PosInt(u) => Some(u)
    case NegInt(_) => None
    case Float(_) => None
  }

  /** `Number::as_f64`: always Some without serde_json's arbitrary-precision feature.
      Integer-to-double rounding is not modelled; the engine never reaches this
      for an integer (see `Value.IntegersTakeAnIntegerArm`). */
  function AsF64(n: Number): (r: Option<real>)
    ensures r.Some?
    ensures n.Float? ==> r == Some(n.f)
  {
    match n
    case PosInt(u) => Some(u as real)
    case NegInt(i) => Some(i as real)
    case Float(f) => Some(f)
  }
}

=== FILE: step_loop.dfy ===
/** The step loop both engine revisions share: the workflow's steps run one after
    another on a store threaded from each step to the next; a step either yields a
    result, which becomes the loop's last result, or fails, which ends the loop with
    that failure (the `?` operator inside the `for` loop). What one step does is a
    parameter; each revision supplies its own. */
module StepLoop {
  import opened Wrappers
  import opened Wasm

  /** One step's effect: the store after it, what it yielded or the failure that
      ends the loop, and the sandbox interactions it made. */
  datatype StepRun<S, R, E> = StepRun(store: S, outcome: Result<R, E>, events: seq<Event>)

  /** A loop body: what step `k` does on a store (`run`), how a step's result
      becomes the loop's last result (`keep`), and the last result before any step
      has run (`init`). */
  datatype Loop<!X, !S, !R, L, E> = Loop(run: (nat, X, S) -> StepRun<S, R, E>, keep: R -> L, init: L)

  /** The loop's state: the store, the last result, the failure that ended the
      loop (if any), and the interactions so far. */
  datatype State<S, L, E> = State(store: S, last: L, failure: Option<E>, trace: seq<Event>)

  /** The loop after its first `n` iterations, starting from `store`. Once a step
      has failed, later steps do not run. */
  function Fold<X, S, R, L, E>(loop: Loop<X, S, R, L, E>, steps: seq<X>, n: nat, store: S): State<S, L, E>
    requires n <= |steps|
  {
    if n == 0 then State(store, loop.init, None, [])
    else
      var prev := Fold(loop, steps, n - 1, store);
      if prev.failure.Some? then prev
      else
        var sr := loop.run(n - 1, steps[n - 1], prev.store);
        match sr.outcome
        case Failure(e) => State(sr.store, prev.last, Some(e), prev.trace + sr.events)
        case Success(v) => State(sr.store, loop.keep(v), None, prev.trace + sr.events)
  }

  /** The loop reaches step `k`: every step before it ran without failure. */
  predicate Reaches<X, S, R, L, E>(loop: Loop<X, S, R, L, E>, steps: seq<X>, k: nat, store: S) {
    k < |steps| && Fold(loop, steps, k, store).failure.None?
  }

  /** What step `k` does once the loop reaches it: it runs on the store the steps
      before it left. */
  function StepAt<X, S, R, L, E>(loop: Loop<X, S, R, L, E>, steps: seq<X>, k: nat, store: S): StepRun<S, R, E>
    requires k < |steps|
  {
    loop.run(k, steps[k], Fold(loop, steps, k, store).store)
  }

  /** Every step after the first runs in the store the step before it left: one
      store is threaded through the whole loop, and no step gets a fresh one. */
  lemma StoreCarriesOver<X, S, R, L, E>(loop: Loop<X, S, R, L, E>, steps: seq<X>, k: nat, store: S)
    requires Reaches(loop, steps, k, store) && k > 0
    ensures Reaches(loop, steps, k - 1, store)
    ensures Fold(loop, steps, k, store).store == StepAt(loop, steps, k - 1, store).store
  {
  }

  /** The loop written with a mutable state and an early return at the first
      failure; it computes exactly `Fold`. */
  method RunLoop<X, S, R, L, E>(loop: Loop<X, S, R, L, E>, steps: seq<X>, store: S) returns (st: State<S, L, E>)
    ensures st == Fold(loop, steps, |steps|, store)
  {
    st := State(store, loop.init, None, []);
    var i := 0;
    while i < |steps|
      invariant i <= |steps|
      invariant st == Fold(loop, steps, i, store) && st.failure.None?
    {
      var sr := loop.run(i, steps[i], st.store);
      if sr.outcome.Failure? {
        st := State(sr.store, st.last, Some(sr.outcome.error), st.trace + sr.events);
        HaltsOnFirstError(loop, steps, i + 1, |steps|, store);
        return;
      }
      st := State(sr.store, loop.keep(sr.outcome.value), None, st.trace + sr.events);
      i := i + 1;
    }
  }

  /** Once a step has failed, no later step runs: the state stays as it was. */
  lemma {:induction false} HaltsOnFirstError<X, S, R, L, E>(loop: Loop<X, S, R, L, E>, steps: seq<X>,
                                                           n: nat, m: nat, store: S)
    requires n <= m <= |steps|
    requires Fold(loop, steps, n, store).failure.Some?
    ensures Fold(loop, steps, m, store) == Fold(loop, steps, n, store)
    decreases m
  {
    if m > n {
      HaltsOnFirstError(loop, steps, n, m - 1, store);
    }
  }

  /** A failing step fixes the loop's final state: the store as that step left it
      (nothing is rolled back), the earlier steps' last result, its failure, and the
      interactions up to and including it. */
  lemma LoopEndsAtFailure<X, S, R, L, E>(loop: Loop<X, S, R, L, E>, steps: seq<X>, k: nat, store: S)
    requires Reaches(loop, steps, k, store)
    requires StepAt(loop, steps, k, store).outcome.Failure?
    ensures var st := Fold(loop, steps, k, store);
      var sr := StepAt(loop, steps, k, store);
      Fold(loop, steps, |steps|, store) == State(sr.store, st.last, Some(sr.outcome.error), st.trace + sr.events)
  {
    HaltsOnFirstError(loop, steps, k + 1, |steps|, store);
  }

  /** Every failure of the loop is the failure of a step it reached. */
  lemma {:induction false} FailureComesFromAStep<X, S, R, L, E>(loop: Loop<X, S, R, L, E>, steps: seq<X>, n: nat, store: S)
    requires n <= |steps|
    requires Fold(loop, steps, n, store).failure.Some?
    ensures exists k :: 0 <= k < n && Reaches(loop, steps, k, store)
                        && StepAt(loop, steps, k, store).outcome == Failure(Fold(loop, steps, n, store).failure.value)
    decreases n
  {
    if Fold(loop, steps, n - 1, store).failure.Some? {
      FailureComesFromAStep(loop, steps, n - 1, store);
    } else {
      assert Reaches(loop, steps, n - 1, store);
    }
  }

  /** When the first `n` steps all succeeded, the loop reached each of them, and
      its last result is the one the last of them yielded. */
  lemma {:induction false} SuccessKeepsLastResult<X, S, R, L, E>(loop: Loop<X, S, R, L, E>, steps: seq<X>, n: nat, store: S)
    requires n <= |steps|
    requires Fold(loop, steps, n, store).failure.None?
    ensures forall k :: 0 <= k < n ==> Reaches(loop, steps, k, store) && StepAt(loop, steps, k, store).outcome.Success?
    ensures n > 0 ==> Fold(loop, steps, n, store).last == loop.keep(StepAt(loop, steps, n - 1, store).outcome.value)
    decreases n
  {
    if n > 0 {
      SuccessKeepsLastResult(loop, steps, n - 1, store);
    }
  }

  /** Every interaction of step `k` is tagged with `k`, whatever the store. */
  ghost predicate TagsItsEvents<X(!new), S(!new), R, L, E>(loop: Loop<X, S, R, L, E>) {
    forall k, x, s :: Tagged(loop.run(k, x, s).events, k)
  }

  /** With steps that tag their interactions, the first `n` iterations only ever
      interact on behalf of steps `0..n-1`. */
  lemma {:induction false} TraceStaysBelow<X(!new), S(!new), R, L, E>(loop: Loop<X, S, R, L, E>, steps: seq<X>, n: nat, store: S)
    requires n <= |steps|
    requires TagsItsEvents(loop)
    ensures StepsBelow(Fold(loop, steps, n, store).trace, n)
    decreases n
  {
    if n > 0 {
      var prev := Fold(loop, steps, n - 1, store);
      TraceStaysBelow(loop, steps, n - 1, store);
      if prev.failure.None? {
        var sr := loop.run(n - 1, steps[n - 1], prev.store);
        assert Tagged(sr.events, n - 1);
        var t := prev.trace + sr.events;
        forall i | 0 <= i < |t|
          ensures t[i].step < n
        {
          if i < |prev.trace| {
            assert t[i] == prev.trace[i];
          } else {
            assert t[i] == sr.events[i - |prev.trace|];
          }
        }
      }
    }
  }

  /** Reference trace: the interactions `announce` lists for each of the first
      `n` steps, in order. */
  function Expected<X>(announce: (nat, X) -> seq<Event>, steps: seq<X>, n: nat): (t: seq<Event>)
    requires n <= |steps|
  {
    if n == 0 then [] else Expected(announce, steps, n - 1) + announce(n - 1, steps[n - 1])
  }

  /** A succeeding step makes exactly the interactions `announce` lists for it. */
  ghost predicate Announces<X(!new), S(!new), R, L, E>(loop: Loop<X, S, R, L, E>, announce: (nat, X) -> seq<Event>) {
    forall k, x, s :: loop.run(k, x, s).outcome.Success? ==> loop.run(k, x, s).events == announce(k, x)
  }

  /** While no step has failed, the loop's interactions are the reference trace:
      the steps ran in workflow order, each once, and nothing else happened. */
  lemma {:induction false} StepsRunInOrder<X(!new), S(!new), R, L, E>(loop: Loop<X, S, R, L, E>, announce: (nat, X) -> seq<Event>,
                                                         steps: seq<X>, n: nat, store: S)
    requires n <= |steps|
    requires Announces(loop, announce)
    requires Fold(loop, steps, n, store).failure.None?
    ensures Fold(loop, steps, n, store).trace == Expected(announce, steps, n)
    decreases n
  {
    if n > 0 {
      StepsRunInOrder(loop, announce, steps, n - 1, store);
    }
  }
}

=== FILE: value.dfy ===
/** A workflow argument: a JSON value narrowed, when the manifest is read, into a
    component call value (`Value` wrapping a `Val`). */
module Value {
  import opened Wrappers
  import Json
  import opened Wasm

  /** A deserialization error carrying its message (`serde::de::Error::custom`). */
  datatype DeError = Custom(msg: string)

  const UNSUPPORTED: string := "unsupported value type"
  const INVALID_NUMBER: string := "invalid number format"

  /** `f32::MAX`, exactly representable as an f64; `f32::MIN` is its negation. */
  const F32_MAX: real := 340282346638528859811704183484516925440.0

  /** The argument wrapper; `Val()` hands out (a copy of) the wrapped call value. */
  datatype Value = Value(inner: Wasm.Val) {
    function Val(): Wasm.Val {
      inner
    }
  }

  /** The signed ladder: the first of i8, i16, i32 whose range holds `i`, else i64.
      Each arm casts only after its own range check. */
  function NarrowSigned(i: int): (v: Wasm.Val)
    requires Json.I64_MIN <= i <= Json.I64_MAX
    ensures WellFormed(v)
    ensures IntegerOf(v) == Some(i)
    ensures SignedWidth(v).Some? && FitsSigned(SignedWidth(v).value, i)
    ensures forall w :: Bits(w) < Bits(SignedWidth(v).value) ==> !FitsSigned(w, i)
  {
    if FitsSigned(W8, i) then S8(CastSigned(W8, i))
    else if FitsSigned(W16, i) then S16(CastSigned(W16, i))
    else if FitsSigned(W32, i) then S32(CastSigned(W32, i))
    else S64(i)
  }

  /** The unsigned ladder: the first of u8, u16, u32 whose range holds `u`, else u64. */
  function NarrowUnsigned(u: int): (v: Wasm.Val)
    requires 0 <= u <= Json.U64_MAX
    ensures WellFormed(v)
    ensures IntegerOf(v) == Some(u)
    ensures UnsignedWidth(v).Some? && FitsUnsigned(UnsignedWidth(v).value, u)
    ensures forall w :: Bits(w) < Bits(UnsignedWidth(v).value) ==> !FitsUnsigned(w, u)
  {
    if u <= UnsignedMax(W8) then U8(CastUnsigned(W8, u))
    else if u <= UnsignedMax(W16) then U16(CastUnsigned(W16, u))
    else if u <= UnsignedMax(W32) then U32(CastUnsigned(W32, u))
    else U64(u)
  }

  /** A JSON number: try i64, then u64, then f64. */
  function FromNumber(n: Json.Number): Result<Wasm.Val, DeError>
    requires Json.ValidNumber(n)
  {
    match Json.AsI64(n)
    case Some(i) => Success(NarrowSigned(i))
    case None =>
      match Json.AsU64(n)
      case Some(u) => Success(NarrowUnsigned(u))
      case None =>
        match Json.AsF64(n)
        case Some(f) => Success(if -F32_MAX <= f <= F32_MAX then Float32(f) else Float64(f))
        case None => Failure(Custom(INVALID_NUMBER))
  }

  /** `Deserialize for Value`: booleans, numbers and strings map to the matching
      call value and `null` to the empty string; arrays and objects are refused. */
  function Deserialize(j: Json.Json): (r: Result<Value, DeError>)
    requires j.Num? ==> Json.ValidNumber(j.n)
    ensures r.Failure? <==> j.Array? || j.Object?
    ensures r.Failure? ==> r.error == Custom(UNSUPPORTED)
    ensures j.Bool? ==> r == Success(Value(Bool(j.b)))
    ensures j.String? ==> r == Success(Value(String(j.s)))
    ensures j.Null? ==> r == Success(Value(String("")))
  {
    match j
    case Bool(b) => Success(Value(Bool(b)))
    case Num(n) =>
      (match FromNumber(n)
       case Success(v) => Success(Value(v))
       case Failure(e) => Failure(e))
    case String(s) => Success(Value(String(s)))
    case Null => Success(Value(String("")))
    case _ => Failure(Custom(UNSUPPORTED))
  }

  /** An integer that fits i64 becomes the signed value of the narrowest width
      holding it, carrying exactly that integer. */
  lemma NarrowestSignedWidth(n: Json.Number)
    requires Json.ValidNumber(n) && Json.IntegerOf(n).Some?
    requires Json.IntegerOf(n).value <= Json.I64_MAX
    ensures var i := Json.IntegerOf(n).value;
      && Deserialize(Json.Num(n)).Success?
      && var v := Deserialize(Json.Num(n)).value.Val();
      && SignedWidth(v).Some?
      && v == Signed(SignedWidth(v).value, i)
      && FitsSigned(SignedWidth(v).value, i)
      && (forall w :: Bits(w) < Bits(SignedWidth(v).value) ==> !FitsSigned(w, i))
  {
  }

  /** Every integer in [-128, 127], including small non-negative ones, becomes S8. */
  lemma ByteRangeIsS8(i: int)
    requires -128 <= i <= 127
    ensures Deserialize(Json.Num(Json.FromInt(i))) == Success(Value(S8(i)))
  {
  }

  /** The unsigned ladder is reached only above i64::MAX, so it only ever yields
      U64: the U8, U16 and U32 arms are dead. */
  lemma UnsignedOnlyAboveI64(n: Json.Number)
    requires Json.ValidNumber(n)
    ensures var r := Deserialize(Json.Num(n));
      UnsignedWidth(r.value.Val()).Some? ==>
        && Json.IntegerOf(n).Some?
        && Json.IntegerOf(n).value > Json.I64_MAX
        && r.value.Val() == U64(Json.IntegerOf(n).value)
  {
  }

  /** A JSON integer never takes the float arm: it becomes an integer value that
      carries it exactly and lies in its width's range, so no cast wraps. */
  lemma IntegersTakeAnIntegerArm(x: int)
    requires Json.I64_MIN <= x <= Json.U64_MAX
    ensures var r := Deserialize(Json.Num(Json.FromInt(x)));
      && r.Success?
      && IntegerOf(r.value.Val()) == Some(x)
      && WellFormed(r.value.Val())
  {
  }
}

=== FILE: wasm.dfy ===
/** The sandbox side of the boundary: the component-model call value `Val`, the
    fixed-width integer types it carries together with Rust's truncating `as` casts,
    and the sandbox operations the engine calls, as oracles that may fail. */
module Wasm {
  import opened Wrappers

  /** The four integer widths of the component model. */
  datatype Width = W8 | W16 | W32 | W64

  function Bits(w: Width): nat {
    match w
    case W8 => 8
    case W16 => 16
    case W32 => 32
    case W64 => 64
  }

  /** 2 to the power of the width's bit count. */
  function Modulus(w: Width): (m: int)
    ensures m >= 256
  {
    match w
    case W8 => 0x100
    case W16 => 0x1_0000
    case W32 => 0x1_0000_0000
    case W64 => 0x1_0000_0000_0000_0000
  }

  function SignedMin(w: Width): int {
    -(Modulus(w) / 2)
  }

  function SignedMax(w: Width): int {
    Modulus(w) / 2 - 1
  }

  function UnsignedMax(w: Width): int {
    Modulus(w) - 1
  }

  predicate FitsSigned(w: Width, x: int) {
    SignedMin(w) <= x <= SignedMax(w)
  }

  predicate FitsUnsigned(w: Width, x: int) {
    0 <= x <= UnsignedMax(w)
  }

  /** Rust's `x as iN`: keep the low N bits, read them as two's complement. */
  function CastSigned(w: Width, x: int): (r: int)
    ensures FitsSigned(w, r)
    ensures (x - r) % Modulus(w) == 0
    ensures FitsSigned(w, x) ==> r == x
  {
    (x - SignedMin(w)) % Modulus(w) + SignedMin(w)
  }

  /** Rust's `x as uN`: keep the low N bits. */
  function CastUnsigned(w: Width, x: int): (r: int)
    ensures FitsUnsigned(w, r)
    ensures (x - r) % Modulus(w) == 0
    ensures FitsUnsigned(w, x) ==> r == x
  {
    x % Modulus(w)
  }

  /** The primitive cases of the component model's call value. */
  datatype Val =
    | Bool(b: bool)
    | S8(n: int)
    | U8(n: int)
    | S16(n: int)
    | U16(n: int)
    | S32(n: int)
    | U32(n: int)
    | S64(n: int)
    | U64(n: int)
    | Float32(x: real)
    | Float64(x: real)
    | Char(c: char)
    | String(s: string)

  /** The signed value of width `w` carrying `n`. */
  function Signed(w: Width, n: int): Val {
    match w
    case W8 => S8(n)
    case W16 => S16(n)
    case W32 => S32(n)
    case W64 => S64(n)
  }

  /** The width of a signed integer value. */
  function SignedWidth(v: Val): Option<Width> {
    match v
    case S8(_) => Some(W8)
    case S16(_) => Some(W16)
    case S32(_) => Some(W32)
    case S64(_) => Some(W64)
    case _ => None
  }

  /** The width of an unsigned integer value. */
  function UnsignedWidth(v: Val): Option<Width> {
    match v
    case U8(_) => Some(W8)
    case U16(_) => Some(W16)
    case U32(_) => Some(W32)
    case U64(_) => Some(W64)
    case _ => None
  }

  /** The integer an integer value carries. */
  function IntegerOf(v: Val): Option<int> {
    if SignedWidth(v).Some? || UnsignedWidth(v).Some? then Some(v.n) else None
  }

  /** An integer value's payload lies in the range of its declared width. */
  predicate WellFormed(v: Val) {
    (SignedWidth(v).Some? ==> FitsSigned(SignedWidth(v).value, v.n))
    && (UnsignedWidth(v).Some? ==> FitsUnsigned(UnsignedWidth(v).value, v.n))
  }

  newtype byte = x: int | 0 <= x < 256

  /** A failure reported by the file system (`std::io::Error`). */
  datatype IoError = IoError(reason: string)

  /** A failure reported by the sandbox runtime (`wasmtime::Error`): an invalid
      component, a failed instantiation, a trap or a host-capability error. */
  datatype WasmError = WasmError(reason: string)

  /** The sandbox operations the step loop uses, with `S` the store, `C` a compiled
      component, `I` an instance and `F` an exported function. Each operation is
      uninterpreted: the model only fixes what the engine does with its answers.
      `instantiate` and `call` may change the store whether or not they succeed;
      `call` receives the arguments and the result buffer and answers with the
      values it writes into that buffer. */
  datatype Runtime<!S, !C, !I, !F> = Runtime(
    instantiate: (S, C) -> (S, Result<I, WasmError>),
    getFunc: (S, I, string) -> Option<F>,
    call: (S, F, seq<Val>, seq<Val>) -> (S, Result<seq<Val>, WasmError>))

  /** An observable interaction of the step loop with the sandbox: the instantiation
      of step `step`'s component, and the call of its export with `args`. */
  datatype Event =
    | Instantiated(step: nat, wasm: string)
    | Invoked(step: nat, func: string, args: seq<Val>)

  /** Every interaction in `t` was made on behalf of step `k`. */
  predicate Tagged(t: seq<Event>, k: nat) {
    forall i :: 0 <= i < |t| ==> t[i].step == k
  }

  /** Every interaction in `t` was made on behalf of one of the first `n` steps. */
  predicate StepsBelow(t: seq<Event>, n: nat) {
    forall i :: 0 <= i < |t| ==> t[i].step < n
  }

  /** A callee writes its results into a caller-owned slice: the slice keeps its
      length (see `WriteBackContents` for what it holds). */
  function WriteBack(buffer: seq<Val>, written: seq<Val>): (r: seq<Val>)
    ensures |r| == |buffer|
  {
    if |buffer| == 0 then []
    else if |written| == 0 then buffer
    else [written[0]] + WriteBack(buffer[1..], written[1..])
  }

  /** After a write-back, the first slots hold the written values and the rest keep
      what the caller put there; values written beyond the slice are dropped. */
  lemma {:induction false} WriteBackContents(buffer: seq<Val>, written: seq<Val>)
    ensures var r := WriteBack(buffer, written);
      && (forall i :: 0 <= i < |r| && i < |written| ==> r[i] == written[i])
      && (forall i :: |written| <= i < |r| ==> r[i] == buffer[i])
    decreases |buffer|
  {
    if |buffer| > 0 && |written| > 0 {
      WriteBackContents(buffer[1..], written[1..]);
      var r := WriteBack(buffer, written);
      var rest := WriteBack(buffer[1..], written[1..]);
      assert r == [written[0]] + rest;
      forall i | 0 < i < |r|
        ensures r[i] == rest[i - 1]
      {
      }
    }
  }
}

=== FILE: workflow.dfy ===
/** The manifest's shape: an ordered list of steps, each naming a component file,
    an export of it and the arguments to pass. `V` is the argument type, which
    differs between the two engine revisions. Reading and parsing the manifest
    file is not part of this model. */
module Workflow {

  datatype Step<V> = Step(func: string, inputs: seq<V>, wasm: string)

  datatype Workflow<V> = Workflow(steps: seq<Step<V>>)

  /** The component paths of a workflow, in step order. */
  function Paths<V>(w: Workflow<V>): (ps: seq<string>)
    ensures |ps| == |w.steps|
    ensures forall i :: 0 <= i < |ps| ==> ps[i] == w.steps[i].wasm
  {
    seq(|w.steps|, i requires 0 <= i < |w.steps| => w.steps[i].wasm)
  }
}

=== FILE: workflow_engine.dfy ===
/** The second engine revision (src/workflow_engine.rs): the same cache fill, then
    a step loop that instantiates and calls every step through the one long-lived
    store of the engine's execution context, converts each input with a fallible
    conversion, keeps the last step's first result slot and renders it as value
    text. Failures are a closed set of kinds. Suspension points of the async code
    are modelled as ordinary sequential calls. */
module WorkflowEngine {
  import opened Wrappers
  import opened Wasm
  import opened Workflow
  import ComponentCache
  import StepLoop

  /** A failure to read a literal as a call value (`wasm_wave` parse error). */
  datatype ParseError = ParseError(reason: string)

  /** `WorkflowEngineError`. */
  datatype EngineError =
    | ComponentNotFound(path: string)
    | FunctionNotFound(name: string)
    | Io(ioError: IoError)
    | Wasmtime(wasmError: WasmError)
    | WasmWave(parseError: ParseError)

  function ReadAsIo(read: string -> Result<seq<byte>, IoError>): string -> Result<seq<byte>, EngineError> {
    p => match read(p)
         case Success(bytes) => Success(bytes)
         case Failure(e) => Failure(Io(e))
  }

  function CompileAsWasmtime<C>(compile: seq<byte> -> Result<C, WasmError>): seq<byte> -> Result<C, EngineError> {
    bytes => match compile(bytes)
             case Success(c) => Success(c)
             case Failure(e) => Failure(Wasmtime(e))
  }

  /** `load_components`: fill the cache with every step's component, skipping cached
      paths; a read failure stops it as `Io`, a compile failure as `Wasmtime`. */
  function LoadComponents<C, V>(components: map<string, C>, workflow: Workflow<V>,
                                read: string -> Result<seq<byte>, IoError>,
                                compile: seq<byte> -> Result<C, WasmError>): (r: ComponentCache.Fill<C, EngineError>)
    ensures forall p :: p in components ==> p in r.cache && r.cache[p] == components[p]
    ensures r.failure.None? ==> forall i :: 0 <= i < |workflow.steps| ==> workflow.steps[i].wasm in r.cache
    ensures r.failure.Some? ==>
      && |r.fetched| > 0
      && var p := r.fetched[|r.fetched| - 1];
      && p !in r.cache
      && match r.failure.value
         case Io(e) => read(p) == Failure(e)
         case Wasmtime(e) => read(p).Success? && compile(read(p).value) == Failure(e)
         case _ => false
  {
    var paths := Paths(workflow);
    var r := ComponentCache.Load(components, paths, ReadAsIo(read), CompileAsWasmtime(compile));
    if r.failure.None? then
      ComponentCache.LoadCovers(components, paths, ReadAsIo(read), CompileAsWasmtime(compile));
      assert forall i :: 0 <= i < |workflow.steps| ==> workflow.steps[i].wasm == paths[i];
      r
    else
      ComponentCache.LoadFetchOutcomes(components, paths, ReadAsIo(read), CompileAsWasmtime(compile));
      r
  }

  /** Converting a step's inputs in order into one argument list, stopping at the
      first input that fails to convert; see `CollectArgsFirstError`. */
  function CollectArgs<V>(inputs: seq<V>, convert: V -> Result<Val, ParseError>): (r: Result<seq<Val>, ParseError>)
    ensures r.Success? ==> |r.value| == |inputs|
  {
    if |inputs| == 0 then Success([])
    else
      match convert(inputs[0])
      case Failure(e) => Failure(e)
      case Success(v) =>
        match CollectArgs(inputs[1..], convert)
        case Failure(e) => Failure(e)
        case Success(vs) => Success([v] + vs)
  }

  /** Collecting succeeds exactly when every input converts, and then holds every
      converted value in order; otherwise its error is that of the first input that
      fails to convert. */
  lemma {:induction false} CollectArgsFirstError<V>(inputs: seq<V>, convert: V -> Result<Val, ParseError>)
    ensures var r := CollectArgs(inputs, convert);
      && (r.Success? <==> forall i :: 0 <= i < |inputs| ==> convert(inputs[i]).Success?)
      && (r.Success? ==> forall i :: 0 <= i < |inputs| ==> convert(inputs[i]) == Success(r.value[i]))
      && (r.Failure? ==>
            exists i :: 0 <= i < |inputs| && convert(inputs[i]) == Failure(r.error)
              && forall j :: 0 <= j < i ==> convert(inputs[j]).Success?)
    decreases |inputs|
  {
    if |inputs| > 0 {
      var tail := inputs[1..];
      CollectArgsFirstError(tail, convert);
      assert forall i :: 0 < i < |inputs| ==> inputs[i] == tail[i - 1];
      var r := CollectArgs(inputs, convert);
      var rest := CollectArgs(tail, convert);
      if convert(inputs[0]).Success? {
        if rest.Failure? {
          var i :| 0 <= i < |tail| && convert(tail[i]) == Failure(rest.error)
                   && forall j :: 0 <= j < i ==> convert(tail[j]).Success?;
          assert convert(inputs[i + 1]) == Failure(r.error);
          assert forall j :: 0 <= j < i + 1 ==> convert(inputs[j]).Success?;
        } else {
          assert r.value == [convert(inputs[0]).value] + rest.value;
        }
      } else {
        assert convert(inputs[0]) == Failure(r.error);
      }
    }
  }

  /** The buffer the engine hands to a call for its results: one `s32` slot. */
  const RESULT_BUFFER: seq<Val> := [S32(0)]

  /** The first slot of a result buffer, absent when the buffer is empty. */
  function First(results: seq<Val>): Option<Val> {
    if |results| > 0 then Some(results[0]) else None
  }

  /** The first slot after a call's write-back into the result buffer: the first
      value written, or `S32(0)` when nothing was written; never absent. */
  lemma ResultSlot(written: seq<Val>)
    ensures First(WriteBack(RESULT_BUFFER, written)) == Some(if |written| > 0 then written[0] else S32(0))
  {
  }

  /** One step's effect: the context store after it, the first result slot (or the
      failure), and the sandbox interactions it made. */
  type StepRun<S> = StepLoop.StepRun<S, Option<Val>, EngineError>

  /** One iteration of the step loop, through the shared store. The checks come in
      a fixed order: component lookup, instantiation, export lookup, conversion of
      every input, the call. */
  function RunStep<S, C, I, F, V>(components: map<string, C>, rt: Runtime<S, C, I, F>,
                                  convert: V -> Result<Val, ParseError>,
                                  k: nat, step: Step<V>, store: S): (r: StepRun<S>)
    // An uncached component is reported by path, and nothing touches the sandbox.
    ensures step.wasm !in components <==> r.outcome == Failure(ComponentNotFound(step.wasm))
    ensures r.outcome.Failure? && r.outcome.error.ComponentNotFound? ==> r.outcome.error.path == step.wasm
    ensures step.wasm !in components ==> r.store == store && r.events == []
    // Otherwise instantiation comes first.
    ensures step.wasm in components ==> 1 <= |r.events| <= 2 && r.events[0] == Instantiated(k, step.wasm)
    // Every interaction is tagged with the step's index.
    ensures Tagged(r.events, k)
    // A missing export is reported by name, after instantiation, before any
    // conversion or call.
    ensures r.outcome.Failure? && r.outcome.error.FunctionNotFound? ==>
      && r.outcome.error.name == step.func
      && r.events == [Instantiated(k, step.wasm)]
      && var made := rt.instantiate(store, components[step.wasm]);
      && made.1.Success?
      && rt.getFunc(made.0, made.1.value, step.func).None?
    // A conversion failure is the first failing input's, reported only once the
    // export was found, and no call is made.
    ensures r.outcome.Failure? && r.outcome.error.WasmWave? ==>
      && r.events == [Instantiated(k, step.wasm)]
      && CollectArgs(step.inputs, convert) == Failure(r.outcome.error.parseError)
      && var made := rt.instantiate(store, components[step.wasm]);
      && made.1.Success?
      && rt.getFunc(made.0, made.1.value, step.func).Some?
    // A call, when made, receives every converted input in order.
    ensures |r.events| == 2 ==>
      && CollectArgs(step.inputs, convert).Success?
      && r.events[1] == Invoked(k, step.func, CollectArgs(step.inputs, convert).value)
    // Success means the call was made, and the result slot always holds a value.
    ensures r.outcome.Success? ==> |r.events| == 2 && r.outcome.value.Some?
    // Instantiation runs in the incoming store; its failure is `Wasmtime` and ends
    // the step in the store it left.
    ensures step.wasm in components ==>
      var made := rt.instantiate(store, components[step.wasm]);
      made.1.Failure? ==> r == StepLoop.StepRun(made.0, Failure(Wasmtime(made.1.error)), [Instantiated(k, step.wasm)])
    // Once instantiated, a missing export is `FunctionNotFound` of the function's
    // name, and a failing input is `WasmWave`, both in the store instantiation left.
    ensures step.wasm in components ==>
      var made := rt.instantiate(store, components[step.wasm]);
      made.1.Success? ==>
        var found := rt.getFunc(made.0, made.1.value, step.func);
        && (found.None? ==> r == StepLoop.StepRun(made.0, Failure(FunctionNotFound(step.func)), [Instantiated(k, step.wasm)]))
        && (found.Some? && CollectArgs(step.inputs, convert).Failure? ==>
              r == StepLoop.StepRun(made.0, Failure(WasmWave(CollectArgs(step.inputs, convert).error)), [Instantiated(k, step.wasm)]))
    // The call runs in the store instantiation left, on the converted inputs, and is
    // recorded whether or not it fails. The step leaves the store the call left; a failed call is `Wasmtime`, and a
    // successful one yields the call's first written value (the buffer's initial
    // `S32(0)` when the call wrote nothing).
    ensures step.wasm in components ==>
      var made := rt.instantiate(store, components[step.wasm]);
      made.1.Success? && rt.getFunc(made.0, made.1.value, step.func).Some? && CollectArgs(step.inputs, convert).Success? ==>
        var called := rt.call(made.0, rt.getFunc(made.0, made.1.value, step.func).value,
                              CollectArgs(step.inputs, convert).value, RESULT_BUFFER);
        && r.store == called.0
        && r.events == [Instantiated(k, step.wasm), Invoked(k, step.func, CollectArgs(step.inputs, convert).value)]
        && (called.1.Failure? ==> r.outcome == Failure(Wasmtime(called.1.error)))
        && (called.1.Success? ==>
              r.outcome == Success(Some(if |called.1.value| > 0 then called.1.value[0] else S32(0))))
  {
    if step.wasm !in components then
      StepLoop.StepRun(store, Failure(ComponentNotFound(step.wasm)), [])
    else
      var made := rt.instantiate(store, components[step.wasm]);
      var instantiated := [Instantiated(k, step.wasm)];
      match made.1
      case Failure(e) => StepLoop.StepRun(made.0, Failure(Wasmtime(e)), instantiated)
      case Success(instance) =>
        match rt.getFunc(made.0, instance, step.func)
        case None => StepLoop.StepRun(made.0, Failure(FunctionNotFound(step.func)), instantiated)
        case Some(func) =>
          match CollectArgs(step.inputs, convert)
          case Failure(e) => StepLoop.StepRun(made.0, Failure(WasmWave(e)), instantiated)
          case Success(args) =>
            var called := rt.call(made.0, func, args, RESULT_BUFFER);
            var events := instantiated + [Invoked(k, step.func, args)];
            match called.1
            case Failure(e) => StepLoop.StepRun(called.0, Failure(Wasmtime(e)), events)
            case Success(written) =>
              ResultSlot(written);
              StepLoop.StepRun(called.0, Success(First(WriteBack(RESULT_BUFFER, written))), events)
  }

  /** The step loop of this revision: `RunStep` on each step, each step's result
      slot replacing the last one, and no slot before the first step. */
  function Runner<S, C, I, F, V>(components: map<string, C>, rt: Runtime<S, C, I, F>,
                                 convert: V -> Result<Val, ParseError>)
    : StepLoop.Loop<Step<V>, S, Option<Val>, Option<Val>, EngineError>
  {
    StepLoop.Loop((k: nat, step: Step<V>, store: S) => RunStep(components, rt, convert, k, step, store),
                  (slot: Option<Val>) => slot, None)
  }

  /** The loop's state after its first `n` iterations, starting from the context
      store `store`. */
  function Steps<S, C, I, F, V>(components: map<string, C>, rt: Runtime<S, C, I, F>,
                                convert: V -> Result<Val, ParseError>,
                                steps: seq<Step<V>>, n: nat, store: S): StepLoop.State<S, Option<Val>, EngineError>
    requires n <= |steps|
  {
    StepLoop.Fold(Runner(components, rt, convert), steps, n, store)
  }

  /** How `execute_workflow` ends: returning its result, or panicking when the final
      value cannot be rendered (`to_wave().unwrap()`). */
  datatype Outcome = Returned(result: Result<Option<string>, EngineError>) | Panicked

  /** A run: the context store afterwards (kept by the engine whatever happened),
      how it ended, and the interactions it made. */
  datatype Run<S> = Run(store: S, outcome: Outcome, trace: seq<Event>)

  /** `execute_workflow`: run every step through the context store and return the
      last result slot rendered as value text, or `None` when nothing ran. */
  function Execute<S, C, I, F, V>(components: map<string, C>, rt: Runtime<S, C, I, F>,
                                  convert: V -> Result<Val, ParseError>,
                                  toWave: Val -> Option<string>,
                                  store: S, workflow: Workflow<V>): (r: Run<S>)
    ensures |workflow.steps| == 0 ==> r == Run(store, Returned(Success(None)), [])
  {
    var st := Steps(components, rt, convert, workflow.steps, |workflow.steps|, store);
    var outcome :=
      if st.failure.Some? then Returned(Failure(st.failure.value))
      else match st.last
           case None => Returned(Success(None))
           case Some(v) =>
             match toWave(v)
             case Some(text) => Returned(Success(Some(text)))
             case None => Panicked;
    Run(st.store, outcome, st.trace)
  }

  /** Converting the inputs as the source writes it: one pass in order, leaving at
      the first input that fails. It computes exactly `CollectArgs`. */
  method ConvertInputs<V>(inputs: seq<V>, convert: V -> Result<Val, ParseError>) returns (r: Result<seq<Val>, ParseError>)
    ensures r == CollectArgs(inputs, convert)
  {
    CollectArgsFirstError(inputs, convert);
    var args := [];
    var i := 0;
    while i < |inputs|
      invariant i <= |inputs| && |args| == i
      invariant forall j :: 0 <= j < i ==> convert(inputs[j]) == Success(args[j])
    {
      var v := convert(inputs[i]);
      if v.Failure? {
        var first :| 0 <= first < |inputs| && convert(inputs[first]) == Failure(CollectArgs(inputs, convert).error)
                     && forall j :: 0 <= j < first ==> convert(inputs[j]).Success?;
        assert first == i;
        return Failure(v.error);
      }
      args := args + [v.value];
      i := i + 1;
    }
    assert forall j :: 0 <= j < |inputs| ==> convert(inputs[j]).Success?;
    var all := CollectArgs(inputs, convert).value;
    assert |all| == |args| && forall j :: 0 <= j < |inputs| ==> args[j] == all[j];
    assert args == all;
    return Success(args);
  }

  /** One iteration of `execute_workflow` as the source writes it, leaving at the
      first failing `?`. It computes exactly the step function `RunStep`. */
  method ExecuteStep<S, C, I, F, V>(components: map<string, C>, rt: Runtime<S, C, I, F>,
                                    convert: V -> Result<Val, ParseError>,
                                    k: nat, step: Step<V>, store: S) returns (r: StepRun<S>)
    ensures r == RunStep(components, rt, convert, k, step, store)
  {
    if step.wasm !in components {
      return StepLoop.StepRun(store, Failure(ComponentNotFound(step.wasm)), []);
    }
    var made := rt.instantiate(store, components[step.wasm]);
    var events := [Instantiated(k, step.wasm)];
    if made.1.Failure? {
      return StepLoop.StepRun(made.0, Failure(Wasmtime(made.1.error)), events);
    }
    var func := rt.getFunc(made.0, made.1.value, step.func);
    if func.None? {
      return StepLoop.StepRun(made.0, Failure(FunctionNotFound(step.func)), events);
    }
    var args := ConvertInputs(step.inputs, convert);
    if args.Failure? {
      return StepLoop.StepRun(made.0, Failure(WasmWave(args.error)), events);
    }
    var called := rt.call(made.0, func.value, args.value, RESULT_BUFFER);
    events := events + [Invoked(k, step.func, args.value)];
    if called.1.Failure? {
      return StepLoop.StepRun(called.0, Failure(Wasmtime(called.1.error)), events);
    }
    return StepLoop.StepRun(called.0, Success(First(WriteBack(RESULT_BUFFER, called.1.value))), events);
  }

  /** `execute_workflow` as the source writes it: the step loop run in place with
      an early return at the first failure (`StepLoop.RunLoop`), the store handed
      back to the context, then the last slot rendered. It computes exactly
      `Execute`. */
  method ExecuteWorkflow<S, C, I, F, V>(components: map<string, C>, rt: Runtime<S, C, I, F>,
                                        convert: V -> Result<Val, ParseError>,
                                        toWave: Val -> Option<string>,
                                        store: S, workflow: Workflow<V>) returns (r: Run<S>)
    ensures r == Execute(components, rt, convert, toWave, store, workflow)
  {
    var st := StepLoop.RunLoop(Runner(components, rt, convert), workflow.steps, store);
    if st.failure.Some? {
      return Run(st.store, Returned(Failure(st.failure.value)), st.trace);
    }
    if st.last.None? {
      return Run(st.store, Returned(Success(None)), st.trace);
    }
    var text := toWave(st.last.value);
    if text.None? {
      return Run(st.store, Panicked, st.trace);
    }
    return Run(st.store, Returned(Success(Some(text.value))), st.trace);
  }

  /** The interactions of step `k` once its export was found: instantiate its
      component and, when every input converts, call the export with them. Only
      the `Success` arm matters to `StepsRunInOrder`, which speaks of steps that
      succeeded, and so of steps whose inputs all converted. */
  function Calls<V>(convert: V -> Result<Val, ParseError>, k: nat, step: Step<V>): seq<Event> {
    match CollectArgs(step.inputs, convert)
    case Success(args) => [Instantiated(k, step.wasm), Invoked(k, step.func, args)]
    case Failure(_) => [Instantiated(k, step.wasm)]
  }

  /** While no step has failed, the interactions so far are exactly `Calls` for
      each step in workflow order, each with all its inputs converted. */
  lemma {:induction false} StepsRunInOrder<S(!new), C, I, F, V(!new)>(components: map<string, C>, rt: Runtime<S, C, I, F>,
                                             convert: V -> Result<Val, ParseError>,
                                             steps: seq<Step<V>>, n: nat, store: S)
    requires n <= |steps|
    requires Steps(components, rt, convert, steps, n, store).failure.None?
    ensures Steps(components, rt, convert, steps, n, store).trace
            == StepLoop.Expected((k: nat, step: Step<V>) => Calls(convert, k, step), steps, n)
  {
    var loop := Runner(components, rt, convert);
    forall k: nat, step: Step<V>, s: S | loop.run(k, step, s).outcome.Success?
      ensures loop.run(k, step, s).events == Calls(convert, k, step)
    {
      var sr := RunStep(components, rt, convert, k, step, s);
      assert sr.events == [sr.events[0], sr.events[1]];
    }
    StepLoop.StepsRunInOrder(loop, (k: nat, step: Step<V>) => Calls(convert, k, step), steps, n, store);
  }

  /** The first `n` iterations only ever interact on behalf of steps `0..n-1`. */
  lemma {:induction false} TraceStaysBelow<S(!new), C, I, F, V(!new)>(components: map<string, C>, rt: Runtime<S, C, I, F>,
                                             convert: V -> Result<Val, ParseError>,
                                             steps: seq<Step<V>>, n: nat, store: S)
    requires n <= |steps|
    ensures StepsBelow(Steps(components, rt, convert, steps, n, store).trace, n)
  {
    var loop := Runner(components, rt, convert);
    forall k: nat, step: Step<V>, s: S
      ensures Tagged(loop.run(k, step, s).events, k)
    {
      var sr := RunStep(components, rt, convert, k, step, s);
    }
    StepLoop.TraceStaysBelow(loop, steps, n, store);
  }

  /** The first failing step's error is the run's error; the context keeps the store
      as that step left it; the interactions are those of the earlier steps plus
      what the failing step did (and so, by `TraceStaysBelow`, none of a later
      step's). */
  lemma FirstFailureEndsRun<S, C, I, F, V>(components: map<string, C>, rt: Runtime<S, C, I, F>,
                                           convert: V -> Result<Val, ParseError>,
                                           toWave: Val -> Option<string>,
                                           store: S, workflow: Workflow<V>, k: nat)
    requires StepLoop.Reaches(Runner(components, rt, convert), workflow.steps, k, store)
    requires StepLoop.StepAt(Runner(components, rt, convert), workflow.steps, k, store).outcome.Failure?
    ensures var sr := StepLoop.StepAt(Runner(components, rt, convert), workflow.steps, k, store);
      var r := Execute(components, rt, convert, toWave, store, workflow);
      && r.outcome == Returned(Failure(sr.outcome.error))
      && r.store == sr.store
      && r.trace == Steps(components, rt, convert, workflow.steps, k, store).trace + sr.events
  {
    StepLoop.LoopEndsAtFailure(Runner(components, rt, convert), workflow.steps, k, store);
  }

  /** A step whose component is not cached fails the run with `ComponentNotFound`
      naming its path, before touching the sandbox. */
  lemma MissingComponentEndsRun<S, C, I, F, V>(components: map<string, C>, rt: Runtime<S, C, I, F>,
                                               convert: V -> Result<Val, ParseError>,
                                               toWave: Val -> Option<string>,
                                               store: S, workflow: Workflow<V>, k: nat)
    requires StepLoop.Reaches(Runner(components, rt, convert), workflow.steps, k, store)
    requires workflow.steps[k].wasm !in components
    ensures var st := Steps(components, rt, convert, workflow.steps, k, store);
      var r := Execute(components, rt, convert, toWave, store, workflow);
      && r.outcome == Returned(Failure(ComponentNotFound(workflow.steps[k].wasm)))
      && r.store == st.store
      && r.trace == st.trace
  {
    FirstFailureEndsRun(components, rt, convert, toWave, store, workflow, k);
  }

  /** Step `k` is reached, its component is cached and instantiates, and looking up
      its export in that instance succeeds exactly when `found`. */
  predicate ExportLookup<S, C, I, F, V>(components: map<string, C>, rt: Runtime<S, C, I, F>,
                                        convert: V -> Result<Val, ParseError>,
                                        steps: seq<Step<V>>, k: nat, store: S, found: bool)
  {
    && StepLoop.Reaches(Runner(components, rt, convert), steps, k, store)
    && steps[k].wasm in components
    && var made := rt.instantiate(Steps(components, rt, convert, steps, k, store).store, components[steps[k].wasm]);
    && made.1.Success?
    && rt.getFunc(made.0, made.1.value, steps[k].func).Some? == found
  }

  /** A step whose export is missing fails the run with `FunctionNotFound` naming
      the function; no input of it is converted and no call is made. */
  lemma MissingExportEndsRun<S, C, I, F, V>(components: map<string, C>, rt: Runtime<S, C, I, F>,
                                            convert: V -> Result<Val, ParseError>,
                                            toWave: Val -> Option<string>,
                                            store: S, workflow: Workflow<V>, k: nat)
    requires ExportLookup(components, rt, convert, workflow.steps, k, store, false)
    ensures var r := Execute(components, rt, convert, toWave, store, workflow);
      && r.outcome == Returned(Failure(FunctionNotFound(workflow.steps[k].func)))
      && r.trace == Steps(components, rt, convert, workflow.steps, k, store).trace
                    + [Instantiated(k, workflow.steps[k].wasm)]
  {
    FirstFailureEndsRun(components, rt, convert, toWave, store, workflow, k);
  }

  /** A step with an input that does not convert fails the run with the error of
      the first such input, after its export was found, without a call. */
  lemma BadInputEndsRun<S, C, I, F, V>(components: map<string, C>, rt: Runtime<S, C, I, F>,
                                       convert: V -> Result<Val, ParseError>,
                                       toWave: Val -> Option<string>,
                                       store: S, workflow: Workflow<V>, k: nat, a: nat)
    requires ExportLookup(components, rt, convert, workflow.steps, k, store, true)
    requires a < |workflow.steps[k].inputs| && convert(workflow.steps[k].inputs[a]).Failure?
    requires forall b :: 0 <= b < a ==> convert(workflow.steps[k].inputs[b]).Success?
    ensures var r := Execute(components, rt, convert, toWave, store, workflow);
      && r.outcome == Returned(Failure(WasmWave(convert(workflow.steps[k].inputs[a]).error)))
      && r.trace == Steps(components, rt, convert, workflow.steps, k, store).trace
                    + [Instantiated(k, workflow.steps[k].wasm)]
  {
    var inputs := workflow.steps[k].inputs;
    CollectArgsFirstError(inputs, convert);
    FirstFailureEndsRun(components, rt, convert, toWave, store, workflow, k);
    var i :| 0 <= i < |inputs| && convert(inputs[i]) == Failure(CollectArgs(inputs, convert).error)
             && forall j :: 0 <= j < i ==> convert(inputs[j]).Success?;
    assert i == a;
  }

  /** A successful run of at least one step returns `Some` of the rendering of the
      last step's first result slot: never `None`, whatever earlier steps returned. */
  lemma LastSlotIsReported<S, C, I, F, V>(components: map<string, C>, rt: Runtime<S, C, I, F>,
                                          convert: V -> Result<Val, ParseError>,
                                          toWave: Val -> Option<string>,
                                          store: S, workflow: Workflow<V>)
    requires |workflow.steps| > 0
    requires Steps(components, rt, convert, workflow.steps, |workflow.steps|, store).failure.None?
    ensures var sr := StepLoop.StepAt(Runner(components, rt, convert), workflow.steps, |workflow.steps| - 1, store);
      var r := Execute(components, rt, convert, toWave, store, workflow);
      && sr.outcome.Success? && sr.outcome.value.Some?
      && r.outcome == (match toWave(sr.outcome.value.value)
                       case Some(text) => Returned(Success(Some(text)))
                       case None => Panicked)
  {
  }

  /** A run in which no step failed leaves in the context the store the last step's
      call left, and reports exactly the interactions `Calls` names for each step, in
      workflow order (whether or not the final rendering then panics). */
  lemma SuccessEndsRun<S(!new), C, I, F, V(!new)>(components: map<string, C>, rt: Runtime<S, C, I, F>,
                                                  convert: V -> Result<Val, ParseError>,
                                                  toWave: Val -> Option<string>,
                                                  store: S, workflow: Workflow<V>)
    requires Steps(components, rt, convert, workflow.steps, |workflow.steps|, store).failure.None?
    ensures var r := Execute(components, rt, convert, toWave, store, workflow);
      && (|workflow.steps| > 0 ==>
            r.store == StepLoop.StepAt(Runner(components, rt, convert), workflow.steps, |workflow.steps| - 1, store).store)
      && r.trace == StepLoop.Expected((k: nat, step: Step<V>) => Calls(convert, k, step), workflow.steps, |workflow.steps|)
  {
    StepsRunInOrder(components, rt, convert, workflow.steps, |workflow.steps|, store);
  }

  /** After a successful cache fill for a workflow, running it never reports a
      missing component. */
  lemma {:induction false} LoadedComponentsAreFound<S, C, I, F, V>(components: map<string, C>, rt: Runtime<S, C, I, F>,
                                                convert: V -> Result<Val, ParseError>,
                                                steps: seq<Step<V>>, n: nat, store: S)
    requires n <= |steps|
    requires forall i :: 0 <= i < |steps| ==> steps[i].wasm in components
    ensures var st := Steps(components, rt, convert, steps, n, store);
      st.failure.Some? ==> !st.failure.value.ComponentNotFound?
  {
    var loop := Runner(components, rt, convert);
    var st := Steps(components, rt, convert, steps, n, store);
    if st.failure.Some? {
      StepLoop.FailureComesFromAStep(loop, steps, n, store);
      var k :| 0 <= k < n && StepLoop.Reaches(loop, steps, k, store)
               && StepLoop.StepAt(loop, steps, k, store).outcome == Failure(st.failure.value);
      var sr := RunStep(components, rt, convert, k, steps[k], StepLoop.Fold(loop, steps, k, store).store);
    }
  }
}

=== FILE: wrappers.dfy ===
/** Option and Result, the two failure-carrying shapes the engine's Rust code uses
    (`Option<T>` for lookups, `Result<T, E>` for everything that can fail). */
module Wrappers {

  datatype Option<+T> = None | Some(value: T)

  datatype Result<+R, +E> = Success(value: R) | Failure(error: E)
}
